=== FILE: README.md ===
# kscope core in Dafny

A Dafny model of the decision logic of kscope, a browser viewer that shows
historical buildings in 3D at their real locations. The model covers:

- the uniform micro-degree tile grid of `Tiler` (tiles.js): the tile index of a
  point, the tile at an index, the counter-clockwise spiral of indices around a
  centre, and Chebyshev distance;
- the land-tile manager (land_manager.js): `wrap`, `clamp`, the square of slippy
  tile coordinates around the camera, the "z/x/y" keys, tile distance, and the
  map update of `updateLandForCameraPosition` (drop pass, then add pass);
- the bounded fetch queue (fetch_queue.js) as a state machine with two events,
  a `fetch(url)` call and the settlement of one in-flight request;
- the feature-loading rules of main.js and the `RenderView` class
  (render_view.js): year-window visibility with its falsy defaults, the
  dispatch of `processFeatures`, first-wins meshes keyed by `properties.id`,
  the extrusion depth, the ground-hole filter, `setSceneYear`, the cycling
  `MyMath.random` and the counter that calls `onComplete` once all 3D models
  have finished loading;
- `Extruder.extrudeFeature` (extruder.js): the required options, the depth
  precedence and the fields of its result;
- `Util.stringToBoolean` and `Util.setOptionFromUrlParams` (util.js).

Geographic points are integer micro-degrees. The camera's tile, the
projection to scene coordinates, the JavaScript `Number`/`parseFloat`
conversions and the random arrays are inputs or function parameters.

Files: `wrappers.dfy` (Option), `tiles.dfy`, `decimal.dfy` (decimal text of
integers, for tile keys), `land_manager.dfy`, `fetch_queue.dfy`,
`features.dfy` (feature records and JavaScript truthiness),
`visibility.dfy`, `scene.dfy` (the id-keyed tables both views share),
`extruder.dfy`, `main_view.dfy`, `render_view.dfy`, `util.dfy`.

main.js and render_view.js contain copies of `setVisibility`,
`extractYearFromDate`, `updateGround` and `setSceneYear`. Each is modelled
once (modules `Visibility` and `Scene`), and the table cites one copy. The
other copies are render_view.js:311-323, 250-252 and 207-220, and
main.js:180-191. The copies are identical except for `updateGround` in
render_view.js: it calls a bare `extractYearFromDate` (render_view.js:211-212),
which that file never binds (only the static `RenderView.extractYearFromDate`
exists), so it would throw a ReferenceError on the first hole. A `RenderView`
never receives holes, so that path is not reached; `Scene.UpdateGround`
models the main.js copy.

## Model

| member | source | states |
|---|---|---|
| Tiles.TileIndexAt | tiles.js:85-90 | on each axis the index i satisfies i*size <= v < i*size + size, so it is the floor of micro-degrees over the tile size |
| Tiles.DocumentedExample | tiles.js:80-83 | tile size 100 at lon -72.5435414, lat 39.4564325 gives index [-725436, 394564] |
| Tiles.TileAtIndex | tiles.js:95-109 | the tile keeps the index unchanged; its min corner is index*size on each axis; it spans `size` on both axes; its min corner maps back to the index; its scene corners are the projection of its geographic corners |
| Tiles.TileMembership | tiles.js:85-109 | a point maps to index i exactly when it lies in the half-open tile at i |
| Tiles.TileIndexMonotonic | tiles.js:85-90 | moving east or north never decreases the index |
| Tiles.TileIndexDistance | tiles.js:163-166 | the distance bounds both coordinate differences and equals one of them, so it is their maximum |
| Tiles.DistanceIsMetric | tiles.js:159-166 | the distance is zero exactly on equal indices, is symmetric and obeys the triangle inequality |
| Tiles.WalkX | tiles.js:144-147 | one x-leg of a spiral turn moves `steps` unit steps along x and appends each index visited: the j-th new index is j steps from the start, and the earlier indices are unchanged |
| Tiles.WalkY | tiles.js:149-152 | one y-leg of a spiral turn moves `steps` unit steps along y and appends each index visited: the j-th new index is j steps from the start, and the earlier indices are unchanged |
| Tiles.TurnY | tiles.js:149-152 | the y-leg of i steps that closes a turn of the spiral: afterwards the walk sits at the next corner and has visited exactly the rectangle it should, with no index repeated; the new indices are those of the leg, in order |
| Tiles.Spiral | tiles.js:136-155 | the loop of turns leaves a unit-step walk from the centre, without repeats, covering the square of radius r; every index lies on the ring of its position, and ring d opens at (x+d, y-d+1) and goes up next |
| Tiles.TileIndicesNear | tiles.js:111-157 | the spiral has (2r+1)^2 indices; it starts at the centre, then the index to its right, then the one above that (counter-clockwise); it holds exactly the indices within distance r, each once; consecutive indices differ by one unit step; it completes each ring before the next: position n holds an index at distance d exactly when (2d-1)^2 <= n < (2d+1)^2; ring d opens at (x+d, y-d+1) and climbs from there |
| Tiles.RingsComplete | tiles.js:111-133 | for every k up to the radius, the first (2k+1)^2 indices of the spiral are exactly the indices within distance k, as in the documented 3x3 and 5x5 pictures |
| LandManager.Wrap | land_manager.js:19-24 | for n > 0 the result lies in [0, n) |
| LandManager.WrapIsModulo | land_manager.js:19-24 | the result is v mod n, so it is congruent to v |
| LandManager.Clamp | land_manager.js:26-30 | for n >= 1 the result lies in [0, n-1]; it equals v inside that range, 0 below it and n-1 above it |
| LandManager.CoordAt | land_manager.js:32-43 | every coordinate of the square keeps the input zoom, has x wrapped into [0, 2^z) and y clamped into [0, 2^z - 1] |
| LandManager.CoordsInRadius | land_manager.js:32-43 | the square holds (2r+1)^2 coordinates, none when r < 0 |
| LandManager.CoordsInRadiusOrder | land_manager.js:36-41 | offset (dx, dy) sits at position (dx+r)*(2r+1) + (dy+r): dx-major, then dy |
| LandManager.CoordsInRadiusMayRepeat | land_manager.js:32-43 | at zoom 0 the first two coordinates of the radius-1 square coincide, so the list can repeat |
| LandManager.TileCoordsInRadius | land_manager.js:32-43 | the nested loops produce exactly the dx-major square, element by element |
| Decimal.IntRoundTrip | land_manager.js:45-48 | the decimal text of an integer, sign included, parses back to the integer |
| Decimal.IntToStringInjective | land_manager.js:45-48 | different integers have different decimal texts |
| LandManager.KeyRoundTrip | land_manager.js:45-48 | a "z/x/y" key parses back to its coordinate |
| LandManager.KeyInjective | land_manager.js:45-48 | two coordinates share a key exactly when they are equal |
| LandManager.TileDistance | land_manager.js:50-53 | tile distance is the Chebyshev distance of (x, y), ignoring z |
| LandManager.TileDistanceIgnoresWrapAndZoom | land_manager.js:50-53 | tiles adjacent across the x seam are 2^z - 1 apart, whatever the other tile's zoom |
| LandManager.DropFar | land_manager.js:81-87 | the drop pass keeps every key and changes far entries only by clearing their object3D field |
| LandManager.AddMissing | land_manager.js:90-102 | the add pass adds exactly the missing keys of the wanted coordinates; old entries stay unchanged; each new entry is unloaded with no features; each new key is fetched once, in the order in which the key first appears among the wanted coordinates |
| LandManager.Update | land_manager.js:66-103 | on the last tile's key nothing changes and nothing is fetched. Otherwise: every wanted key gets an entry; the key set only grows; old entries stay unchanged except object3D; new entries are fresh; the fetched keys are exactly the new keys, without repeats, in the order of the wanted coordinates (dx-major, as tileCoordsInRadius lists them) |
| LandManager.KeysOnlyGrow | land_manager.js:81-87 | over any series of camera updates no key is ever removed |
| LandManager.DropChangesNothing | land_manager.js:81-87 | since no entry ever has object3D, the drop pass is the identity and that stays true |
| LandManager.TileLoaded | land_manager.js:117-123 | a tile with a land layer is marked loaded with the decoded features appended, its key, coordinate and object3D flag untouched; without one nothing changes; no other entry and no other field of the manager changes |
| LandManager.FarTileSurvivesDrop | land_manager.js:81-87 | as written, a tile far beyond the drop radius keeps its entry after the update; the evicting update removes it |
| LandManager.DropFarEvicting | land_manager.js:81-87 | corrected drop pass: exactly the entries within the drop radius remain, unchanged |
| LandManager.UpdateEvicting | land_manager.js:66-103 | corrected update: on the same tile nothing happens; otherwise only the entries and lastTileKey change; the keys are the entries within the drop radius plus the wanted keys; old entries within the drop radius are kept unchanged; far entries that are not wanted again are removed; every other entry is fresh; the fetches are exactly the keys that were not kept, each once, in the order of the wanted coordinates |
| LandManager.EvictThenAdd | land_manager.js:81-101 | after the evicting drop and the add pass, near entries survive unchanged, far entries survive only when wanted again, and every entry not fetched is an unchanged near one |
| FetchQueue.Init | fetch_queue.js:17-24 | the new queue is empty and satisfies the queue invariant |
| FetchQueue.AddToWaiting | fetch_queue.js:32-43 | the request joins the end of `waiting` and nWaiting counts it |
| FetchQueue.ProcessOneWaitingIfPossible | fetch_queue.js:45-52 | a request is admitted exactly when one waits and nPending < maxPending. It is the head of `waiting`; it goes in flight and into `pending` under its url; nPending grows by one. Otherwise nothing changes |
| FetchQueue.ProcessKeepsValid | fetch_queue.js:45-52 | admission restores the invariant: the counters match the lists, nPending stays within the cap, nothing waits beside a free slot, submissions are conserved and numbering is FIFO |
| FetchQueue.Fetch | fetch_queue.js:26-30 | fetch keeps the invariant and admits at most one request, exactly when a slot was free; that request is the oldest one not yet admitted |
| FetchQueue.FreeSlot | fetch_queue.js:60-62 | a settlement counts the request out of nPending and deletes its url from `pending` |
| FetchQueue.Complete | fetch_queue.js:53-64 | success and failure alike keep the invariant and settle the right request; the completion count grows; the url leaves `pending`; exactly one request is admitted when any waits, the oldest |
| FetchQueue.SharedUrlLosesPendingEntry | fetch_queue.js:52-62 | two in-flight fetches of one url share one `pending` key; the first completion deletes it while nPending still counts the other |
| FetchQueue.Apply | fetch_queue.js:26-64 | each event keeps the invariant and admits at most one request, numbered next in submission order |
| FetchQueue.Run | fetch_queue.js:26-64 | the invariant holds after any series of fetches and completions |
| FetchQueue.AdmissionInSubmissionOrder | fetch_queue.js:41-49 | over any series of events the admitted requests are the next ones in submission order, with no gap or repeat |
| FetchQueue.DrainAll | fetch_queue.js:60-64 | with maxPending >= 1, settling requests until none is in flight leaves nothing waiting, with every submitted request completed |
| Visibility.ExtractYearFromDate | main.js:204-206 | a falsy date gives null; any other date is handed to the number conversion |
| Visibility.SetVisibility | main.js:408-420 | the object ends visible exactly when (start or 0) <= year <= (end or 10000); it is left untouched when already in that state |
| Visibility.SetVisibilityIdempotent | main.js:411-419 | a second call with the same inputs changes nothing |
| Visibility.EndYearZeroIsOpenEnded | main.js:409-411 | an end year of 0 behaves as no end year: the window reaches 10000 |
| Visibility.VisibleHoles | main.js:722-735 | the kept geometries are exactly those of holes whose window contains the year |
| Visibility.VisibleHolesAppend | main.js:724-731 | the filter keeps order: the holes of a concatenation are the holes of each part in turn |
| Scene.AddMeshFirstWins | main.js:243-250 | a mesh is stored under properties.id only when that id has none; it is named after the id and its visibility follows the feature's dates; an existing mesh is never replaced |
| Scene.SetSceneYear | render_view.js:192-203 | every mesh becomes visible exactly when the year is in its window and keeps its name, depth and height, using the model's years when idToModel has the id and the feature's dates otherwise; the ground is rebuilt; a mesh with neither source is the TypeError |
| Scene.SetSceneYearIdempotent | render_view.js:192-203 | applying the same year twice equals applying it once |
| Extrusion.Depth | extruder.js:47-57 | depth precedence: a truthy extrudeDepth, else a truthy height (negated), else levels > 0 (-levels * storey height), else the negated minimum |
| Extrusion.ExtrudeFeature | extruder.js:27-69 | the result is null exactly when the shape fails, options are null or a required option is missing; otherwise it is named properties.id, visible, with depth by the precedence above |
| Extrusion.MinimumComesFromOptions | extruder.js:45-50 | with no override and no levels the depth is exactly minus the minimumExtrusionMeters option; the local 0.01 plays no part |
| MainView.Random | main.js:10-21 | for a non-empty array the index stays in range, advances by one modulo the length, and the entry at the new index is returned |
| MainView.NextIndexWraps | main.js:15-18 | incrementing and resetting at the length is adding one modulo the length |
| MainView.DrawsCycle | main.js:10-21 | successive calls return the array's entries in order, wrapping to the first after the last |
| MainView.Classify | main.js:154-172 | dispatch precedence: building, then sidewalk, then basement walkout, then unsupported |
| MainView.LoadFeature | main.js:228-251 | the mesh is added first-wins, named after properties.id, at ground level and visible exactly when the year lies in the feature's dates. Its depth is a truthy extrudeDepth, else -levels * 4.3 when levels > 0, else -0.01 |
| MainView.LoadBasementWalkout | main.js:259-285 | the hole is pushed even when the id already has a mesh; the ground is rebuilt from all holes whose window holds the year; the sunken mesh is added first-wins, named after properties.id and visible by the feature's dates, at min_level storeys, lowered by its depth |
| MainView.ProcessFeature | main.js:144-173 | an excluded feature changes nothing. Otherwise its properties are recorded under its id; a mesh key is added unless it is unsupported, and a new mesh is what its kind loads as: a building at its level depth (or the minimum), a sidewalk at -0.15, a walkout at min_level storeys and sunk by as much; a walkout adds its hole and rebuilds the ground, other kinds leave the ground alone |
| MainView.ProcessFeatures | main.js:130-174 | no stored mesh is replaced. The new mesh keys are the properties.id of the non-excluded supported features, and each new mesh is what the first such feature with that properties.id loads as; the properties under an id are those of the last non-excluded feature with that id, and other ids keep theirs; the walkout holes are appended in order; the ground is rebuilt from all holes when some walkout was loaded and is untouched otherwise |
| MainView.NotExcluded | main.js:139-147 | the surviving features are exactly those whose id is not excluded, and there are no more of them than features |
| MainView.NotExcludedAppend | main.js:144-147 | the filter distributes over concatenation, so order and multiplicity are kept |
| MainView.ExclusionIsFilter | main.js:139-147 | processing with an exclusion list equals processing the surviving features with none |
| MainView.WithoutIds | main.js:744 | the kept models are exactly those whose id is not ignored, and there are no more of them than models |
| MainView.WithoutIdsAppend | main.js:744 | the filter distributes over concatenation, so order and multiplicity are kept |
| MainView.AllModels | main.js:744 | the list is the external models, followed by exactly the filtered model list (the models whose id no external model has, in order) |
| MainView.RecordModels | main.js:750-753 | idToModel gains every model's id; each id maps to the years of the last model in the list with that id; ids no model has keep their value |
| MainView.LoadModels | main.js:738-754 | the loading context counts every model to load |
| MainView.ModelLoaded | main.js:801-848 | a parsed model's object, at the model's altitude, is visible exactly when the year is in the model's window, is stored under the model's id replacing any mesh there, and the model finishes; nothing else in the scene changes |
| MainView.ModelMeshBlocksFeature | main.js:801-848 | once a model's mesh is stored, loadFeature for a feature with the same id leaves the meshes unchanged |
| MainView.ModelFinished | main.js:765-773 | each finish counts one down; onComplete is called when the count reaches zero while it is still set, and is then cleared |
| MainView.OnCompleteOnlyAtZero | main.js:765-778 | over any number of finishes, success or error, onComplete is called at the finish that reaches zero and at no other |
| MainView.AllFinishedCallsOnCompleteOnce | main.js:738-778 | when all N >= 1 models finish, onComplete is called exactly once, at the last finish |
| MainView.NoModelsNeverCompletes | main.js:738-778 | with no model at all the context starts at zero with onComplete set, and no number of finishes ever calls it |
| MainView.LoadModelsEager | main.js:738-753 | corrected load3dModels: onComplete is called at once exactly when there is no model, and otherwise left set for the finishes |
| MainView.OnCompleteCalledOnceForAnyList | main.js:738-778 | with the empty list handled, onComplete is called exactly once for every model list: at once when it is empty, else at the last finish |
| RenderView.NewView | render_view.js:10-31 | a new view has processedFeatures false, no meshes and no holes |
| RenderView.Classify | render_view.js:64-80 | dispatch: building, then sidewalk, else unsupported; a walkout is never a separate kind |
| RenderView.ClassifyMatchesMainView | render_view.js:64-80 | the dispatch equals main.js's except that a walkout is unsupported |
| RenderView.LoadFeature | render_view.js:259-286 | the mesh is added first-wins, named after properties.id, at ground level and visible exactly when the year lies in the feature's dates. Its depth is a truthy extrudeDepth, else minus the parsed truthy height, else -levels * 4.3 when levels > 0, else -0.01 |
| RenderView.ProcessFeature | render_view.js:58-80 | every feature's properties are recorded under its id; a mesh key is added unless it is unsupported, and a new mesh is what its kind loads as: a building at its height, else its level depth, else the minimum; a sidewalk at -0.15; holes never change |
| RenderView.ProcessAll | render_view.js:54-81 | nothing is excluded. No stored mesh is replaced; the new mesh keys are the properties.id of the supported features, and each new mesh is what the first such feature with that properties.id loads as; the properties under an id are those of the last feature with that id, and other ids keep theirs |
| RenderView.ProcessFeatures | render_view.js:40-83 | after any response, an empty one included, processedFeatures is true; the new meshes come from the first supported feature per properties.id and the properties from the last feature per id; ids without a feature keep their properties; holes, groundHoles and idToModel are unchanged |
| RenderView.AgreesWithMainView | render_view.js:54-81 | without heights and walkouts, a view loads a response as main.js does with no exclusions |
| Util.Lower | util.js:55 | lower-casing keeps the length and maps each character through the ASCII lower-case |
| Util.LowerIdempotent | util.js:55 | lower-casing twice is lower-casing once |
| Util.StringToBoolean | util.js:54-57 | true exactly for "1" and for "yes" and "true" in any mix of cases |
| Util.StringToBooleanIgnoresCase | util.js:55 | the result is the same for a string and its lower-cased form |
| Util.StringToBooleanExamples | util.js:54-57 | "YES", "True" and "1" are true; "", "no", " yes" and "0" are false |
| Util.SetOptionFromUrlParams | util.js:59-63 | a present parameter sets the option to its parsed value, or its text when no parser is given; a missing one changes nothing; no other key changes |

## Left out

- Tiles.TileAtIndex: the source holds a tile's corners in degrees (`minLonMicroDegrees / 1e6`, tiles.js:100-103), and `tileIndexAtLonLatDegrees` multiplies them by 1e6 again, so in double arithmetic the corner need not map back to its index: at size 100 and index x = -167770 the corner is -16.777 degrees, -16.777 * 1e6 is -16777000.000000002, and the floor gives -167771. The model keeps corners in integer micro-degrees, where the round trip is exact.
- Tiles.TileIndexAt: takes integer micro-degrees. The float product `degrees * 1e6` and its rounding are not modelled.
- Tiles.TileIndicesNear: the radius is a natural number. With a negative or fractional radius the source's loop never reaches `i == iMax` (tiles.js:142-155) and does not terminate; that non-termination is not modelled.
- Decimal: JavaScript prints integers of magnitude 1e21 or more in exponent notation; tile coordinates and zooms never get that large, and that notation is not modelled.
- Tile's `bBoxString` (tiles.js:30-31) and the other decimal float formatting are left out.
- The projection to scene coordinates (coords.js, geospatial_utils.js) is the parameter `toScene`.
- `lonLatDegreesToTileCoord` (land_manager.js:8-17) is floating-point Web Mercator. The camera's tile coordinate is an input of `LandManager.Update`.
- `fetchAndRenderLandTile` and `renderLandTile`: the network, Mapbox Vector Tile decoding and canvas drawing are left out. `Update` reports the keys whose fetch it starts; `TileLoaded` is the effect of a decoded tile.
- FetchQueue: promises and the network are abstract. A settlement is an event naming the in-flight request and whether it succeeded. The never-read `seq` field is omitted. The in-flight list and the submitted and completed counts are bookkeeping the source does not store.
- FetchQueue.Run: a completion of a request that is not in flight cannot happen and is skipped.
- Visibility.SetVisibility: years are integers. Fractional years are not modelled. NaN is modelled as None: it is falsy, like null.
- `Number(date)` and `parseFloat` are function parameters; what they return for any text is not modelled.
- Scene.SetSceneYear: the TypeError is None. Meshes updated before the throw, in `Object.entries` order, are not modelled.
- Meshes keep only name, depth, vertical position and visibility. Shapes, materials, colours (including `generateRandomColor` and `generateRandomGreyColor`), textures and shadows are left out.
- `building:levels` is held as the number it coerces to. A string "0" is truthy in the source but gives the same depth as 0.
- A missing `min_level` gives a NaN depth in the source. The model's `minLevel` is always a number.
- A feature without geometry throws in the source and stops `processFeatures`. The model assumes every feature has its first ring.
- Extrusion.ExtrudeFeature: the conversion of the ring to scene coordinates is the flag `shapeOk`. An option key that is present with an undefined value counts as present; the NaN depth it would give is not modelled.
- load3dModel: the MTL and OBJ loaders, the horizontal position, scale, rotation and material bookkeeping are left out, and so is `idToBaseName`. `MainView.ModelLoaded` keeps the altitude, the visibility and the idToMesh write; a model that fails to load is an error finish (`ModelFinished` alone). A model whose MTL file fails to load never finishes, because that loader has no error callback. The finishes are a count of events.
- The placeholder hole main.js declares (main.js:57) is replaced by an empty list (main.js:626) before any walkout is loaded. It is not modelled.
- Util.StringToBoolean: lower-casing is ASCII. No non-ASCII character lower-cases to a letter of "yes" or "true", so the accepted set is the same.
- Util.SetOptionFromUrlParams: a parameter given several times is not modelled. `params` maps a name to the value `get` returns.
- UI handlers, the THREE.js scene wiring, shaders, the skybox, camera and matrix code, and the static settings are left out.

## Findings

| source | as written | input that shows it | evidently intended | confidence | as-written member | corrected member |
|---|---|---|---|---|---|---|
| land_manager.js:81-87 | The drop pass deletes only the `object3D` field of far entries. No code ever sets that field. So far entries stay in `landTileDetails` forever, and the map grows with every tile the camera passes. | zoom z >= 3, drop radius 0; an entry for tile (5, 5); the camera moves to tile (0, 0). The entry is still present afterwards. | remove the entries farther than `landDropRadius` from the camera | medium, not executed | LandManager.FarTileSurvivesDrop | LandManager.UpdateEvicting |
| main.js:954-960 | `load3dModels` starts the counter at the number of models (main.js:746-749) and only a model's finish calls `onComplete`, which is the only place the features are fetched. With an empty model list nothing finishes, so the features are never fetched and no building appears. | `models` and `external_models` both empty | call `onComplete` at once when there is no model to wait for | low, not executed; models.js, which holds the list, is not part of this model | MainView.NoModelsNeverCompletes | MainView.LoadModelsEager |

=== FILE: decimal.dfy ===
/** Decimal text of integers, as JavaScript prints an integral number below 1e21
    in magnitude when it is concatenated into a string (larger ones print in
    exponent notation and are not modelled), together with a parser that
    inverts it. */
module Decimal {
  import opened Wrappers

  predicate IsDigit(ch: char)
  {
    '0' <= ch <= '9'
  }

  predicate AllDigits(s: string)
  {
    forall i :: 0 <= i < |s| ==> IsDigit(s[i])
  }

  function DigitChar(d: int): (ch: char)
    requires 0 <= d < 10
    ensures IsDigit(ch)
  {
    ('0' as int + d) as char
  }

  function DigitValue(ch: char): (d: nat)
    requires IsDigit(ch)
    ensures d < 10 && DigitChar(d) == ch
  {
    (ch as int - '0' as int)
  }

  /** Decimal digits of n, most significant first, without leading zeros. */
  function NatToString(n: nat): (s: string)
    ensures |s| > 0 && AllDigits(s)
    ensures |s| > 1 ==> s[0] != '0'
    decreases n
  {
    if n < 10 then [DigitChar(n)] else NatToString(n / 10) + [DigitChar(n % 10)]
  }

  /** Decimal text of v with a leading '-' when negative. */
  function IntToString(v: int): (s: string)
    ensures |s| > 0
    ensures forall i :: 0 <= i < |s| ==> s[i] == '-' || IsDigit(s[i])
  {
    if v < 0 then "-" + NatToString(-v) else NatToString(v)
  }

  function ParseNat(s: string): nat
    requires AllDigits(s)
  {
    if |s| == 0 then 0 else 10 * ParseNat(s[..|s| - 1]) + DigitValue(s[|s| - 1])
  }

  /** Reads back an optionally negative decimal; None for any other text. */
  function ParseInt(s: string): Option<int>
  {
    if |s| > 1 && s[0] == '-' && AllDigits(s[1..]) then Some(-(ParseNat(s[1..]) as int))
    else if |s| > 0 && AllDigits(s) then Some(ParseNat(s))
    else None
  }

  lemma {:induction false} ParseNatToString(n: nat)
    ensures ParseNat(NatToString(n)) == n
    decreases n
  {
    var s := NatToString(n);
    if n >= 10 {
      ParseNatToString(n / 10);
      assert s[..|s| - 1] == NatToString(n / 10);
    }
  }

  /** Printing then parsing an integer gives it back. */
  lemma IntRoundTrip(v: int)
    ensures ParseInt(IntToString(v)) == Some(v)
  {
    var s := IntToString(v);
    if v < 0 {
      assert s[1..] == NatToString(-v);
      ParseNatToString(-v);
    } else {
      ParseNatToString(v);
    }
  }

  /** Distinct integers print differently. */
  lemma IntToStringInjective(a: int, b: int)
    ensures IntToString(a) == IntToString(b) <==> a == b
  {
    IntRoundTrip(a);
    IntRoundTrip(b);
  }
}

=== FILE: extruder.dfy ===
/** Extrusion depth and Extruder.extrudeFeature (extruder.js). The depth rule
    is shared with the loadFeature functions of main.js and render_view.js,
    which differ only in the inputs they hand it. */
module Extrusion {
  import opened Wrappers
  import opened Features

  /** A truthy height property, parsed; None when the property is falsy. */
  function ParsedHeight(p: Properties, parseFloat: string -> real): Option<real>
  {
    if TruthyText(p.height) then Some(parseFloat(p.height.value)) else None
  }

  /** The depth the loaders compute: a default from the level count, then
      overridden by a truthy height, then by a truthy extrudeDepth option. */
  function Depth(extrudeDepth: Option<real>, height: Option<real>, levels: real,
                 storeyHeight: real, minimumExtrusion: real): (d: real)
    ensures TruthyNumber(extrudeDepth) ==> d == extrudeDepth.value
    ensures !TruthyNumber(extrudeDepth) && height.Some? ==> d == -height.value
    ensures !TruthyNumber(extrudeDepth) && height.None? && levels > 0.0 ==> d == -levels * storeyHeight
    ensures !TruthyNumber(extrudeDepth) && height.None? && levels <= 0.0 ==> d == -minimumExtrusion
  {
    var byLevels := if levels > 0.0 then -levels * storeyHeight else -minimumExtrusion;
    var byHeight := if height.Some? then -height.value else byLevels;
    if TruthyNumber(extrudeDepth) then extrudeDepth.value else byHeight
  }

  /** The options extrudeFeature reads; None stands for a key that is not in
      the options object. */
  datatype ExtruderOptions = ExtruderOptions(averageStoreyHeightMeters: Option<real>,
                                             minimumExtrusionMeters: Option<real>,
                                             brightnessOfExtrudedModels: Option<real>,
                                             colorVariationOfExtrudedModels: Option<real>,
                                             extrudeDepth: Option<real>)

  /** The fields of the returned mesh the source sets. */
  datatype ExtrudedMesh = ExtrudedMesh(name: string, depth: real, visible: bool)

  predicate HasRequiredOptions(o: ExtruderOptions)
  {
    && o.averageStoreyHeightMeters.Some?
    && o.minimumExtrusionMeters.Some?
    && o.brightnessOfExtrudedModels.Some?
    && o.colorVariationOfExtrudedModels.Some?
  }

  /** extrudeFeature. `options` None is a null or undefined options object;
      `shapeOk` says whether the conversion of the feature's ring to scene
      coordinates, which is not modelled, succeeded. Every thrown error
      yields null. */
  function ExtrudeFeature(feature: Feature, numberOfLevels: real, options: Option<ExtruderOptions>,
                          shapeOk: bool, parseFloat: string -> real): (r: Option<ExtrudedMesh>)
    ensures r.Some? <==> shapeOk && options.Some? && HasRequiredOptions(options.value)
    ensures r.Some? ==> r.value.name == feature.properties.id && r.value.visible
    ensures r.Some? && TruthyNumber(options.value.extrudeDepth) ==>
              r.value.depth == options.value.extrudeDepth.value
    ensures r.Some? && !TruthyNumber(options.value.extrudeDepth) && TruthyText(feature.properties.height) ==>
              r.value.depth == -parseFloat(feature.properties.height.value)
    ensures r.Some? && !TruthyNumber(options.value.extrudeDepth) && !TruthyText(feature.properties.height)
            && numberOfLevels > 0.0 ==>
              r.value.depth == -numberOfLevels * options.value.averageStoreyHeightMeters.value
    ensures r.Some? && !TruthyNumber(options.value.extrudeDepth) && !TruthyText(feature.properties.height)
            && numberOfLevels <= 0.0 ==>
              r.value.depth == -options.value.minimumExtrusionMeters.value
  {
    if !shapeOk || options.None? then None
    else
      var o := options.value;
      if !HasRequiredOptions(o) then None
      else
        var depth := Depth(o.extrudeDepth, ParsedHeight(feature.properties, parseFloat), numberOfLevels,
                           o.averageStoreyHeightMeters.value, o.minimumExtrusionMeters.value);
        Some(ExtrudedMesh(feature.properties.id, depth, true))
  }

  /** The local 0.01 constant plays no part: with no override and no levels
      the depth is exactly the negated minimumExtrusionMeters option, whatever
      its value. */
  lemma MinimumComesFromOptions(feature: Feature, o: ExtruderOptions, parseFloat: string -> real)
    requires HasRequiredOptions(o) && !TruthyNumber(o.extrudeDepth) && !TruthyText(feature.properties.height)
    ensures ExtrudeFeature(feature, 0.0, Some(o), true, parseFloat)
            == Some(ExtrudedMesh(feature.properties.id, -o.minimumExtrusionMeters.value, true))
  {
  }
}

=== FILE: features.dfy ===
/** The feature records the loading rules of main.js, render_view.js and
    extruder.js read, and JavaScript truthiness of their property values. */
module Features {
  import opened Wrappers

  /** A point of a feature's outer ring, in degrees. */
  datatype Point = Point(lon: real, lat: real)

  /** The properties the loading rules read. None stands for a property that
      is absent or null; building:levels is held as the number it coerces to. */
  datatype Properties = Properties(id: string,
                                   building: Option<string>,
                                   sidewalk: Option<string>,
                                   basementWalkout: Option<string>,
                                   levels: Option<real>,
                                   height: Option<string>,
                                   minLevel: real,
                                   startDate: Option<string>,
                                   endDate: Option<string>)

  /** A feature of the API response: its own id, its properties and the first
      ring of its geometry. */
  datatype Feature = Feature(id: string, properties: Properties, ring: seq<Point>)

  /** A string property in a JavaScript condition: absent, null and "" are false. */
  predicate TruthyText(v: Option<string>)
  {
    v.Some? && v.value != ""
  }

  /** A number in a JavaScript condition: absent, null and 0 are false. */
  predicate TruthyNumber(v: Option<real>)
  {
    v.Some? && v.value != 0.0
  }

  /** numberOfLevels as processFeatures computes it: the levels property when
      truthy, else 0. */
  function NumberOfLevels(p: Properties): real
  {
    if TruthyNumber(p.levels) then p.levels.value else 0.0
  }

  /** No later feature of the response has the id of features[j]. */
  predicate LastWithFeatureId(features: seq<Feature>, j: int)
    requires 0 <= j < |features|
  {
    forall l :: j < l < |features| ==> features[l].id != features[j].id
  }

  /** How a feature is rendered. */
  datatype Kind = Building | Sidewalk | BasementWalkout | Unsupported
}

=== FILE: fetch_queue.dfy ===
/** Model of fetch_queue.js: a FIFO waiting list and a count of in-flight
    requests capped at maxPending. The network is abstract: `Fetch` is a call of
    fetch(url) and `Complete` is the settlement (success or failure) of one
    in-flight request. Besides the source's fields the queue keeps, as plain
    bookkeeping, the list of in-flight requests (held in the source by the
    pending promise callbacks) and the numbers of submitted and completed
    requests. */
module FetchQueue {
  import opened Wrappers

  /** One call of fetch(url); `id` is its position in submission order. */
  datatype Request = Request(id: nat, url: string)

  datatype Queue = Queue(maxPending: int,
                         pending: map<string, Request>,
                         waiting: seq<Request>,
                         nPending: int,
                         nWaiting: int,
                         inFlight: seq<Request>,
                         submitted: nat,
                         completed: nat)

  /** A queue after one event, and the request it handed to the network, if any. */
  datatype Step = Step(queue: Queue, issued: Option<Request>)

  /** How a completed request's promise was settled. */
  datatype Settlement = Resolved(request: Request) | Rejected(request: Request)

  datatype Completion = Completion(settled: Settlement, queue: Queue, issued: Option<Request>)

  /** The queue as constructed. */
  function Init(maxPending: int): (q: Queue)
    ensures Valid(q) && q.waiting == [] && q.inFlight == []
  {
    Queue(maxPending, map[], [], 0, 0, [], 0, 0)
  }

  /** The requests not yet admitted, in submission order, numbered consecutively
      up to the last submission. */
  ghost predicate FifoNumbering(q: Queue)
  {
    && |q.waiting| <= q.submitted
    && (forall k :: 0 <= k < |q.waiting| ==> q.waiting[k].id == q.submitted - |q.waiting| + k)
    && (forall k :: 0 <= k < |q.inFlight| ==> q.inFlight[k].id < q.submitted - |q.waiting|)
    && (forall a, b :: 0 <= a < b < |q.inFlight| ==> q.inFlight[a].id != q.inFlight[b].id)
  }

  /** The queue invariant. */
  ghost predicate Valid(q: Queue)
  {
    // the counters are kept in step with the lists
    && q.nWaiting == |q.waiting|
    && q.nPending == |q.inFlight|
    // the cap (a non-positive cap admits nothing)
    && (q.nPending <= q.maxPending || q.nPending == 0)
    // work-conserving: nothing waits while a slot is free
    && (|q.waiting| > 0 ==> q.nPending >= q.maxPending)
    // every pending entry is an in-flight request filed under its url
    && (forall u :: u in q.pending ==> q.pending[u].url == u && q.pending[u] in q.inFlight)
    // conservation
    && q.submitted == |q.waiting| + |q.inFlight| + q.completed
    && FifoNumbering(q)
  }

  /** addToWaiting: append the request and count it. */
  function AddToWaiting(q: Queue, url: string): (r: Queue)
    ensures r.waiting == q.waiting + [Request(q.submitted, url)]
    ensures r.nWaiting == q.nWaiting + 1 && r.submitted == q.submitted + 1
  {
    q.(nWaiting := q.nWaiting + 1,
       waiting := q.waiting + [Request(q.submitted, url)],
       submitted := q.submitted + 1)
  }

  /** processOneWaitingIfPossible: admit the oldest waiting request when one
      waits and a slot is free. */
  function ProcessOneWaitingIfPossible(q: Queue): (r: Step)
    requires q.nWaiting == |q.waiting|
    ensures r.issued.Some? <==> |q.waiting| > 0 && q.nPending < q.maxPending
    ensures r.issued.Some? ==>
              && [r.issued.value] + r.queue.waiting == q.waiting
              && r.queue.inFlight == q.inFlight + [r.issued.value]
              && r.queue.nPending == q.nPending + 1
              && r.queue.pending == q.pending[r.issued.value.url := r.issued.value]
    ensures r.issued.None? ==> r.queue == q
    ensures r.queue.submitted == q.submitted && r.queue.completed == q.completed
    ensures r.queue.nWaiting == |r.queue.waiting|
  {
    if q.nWaiting <= 0 || q.nPending >= q.maxPending then Step(q, None)
    else
      var head := q.waiting[0];
      Step(q.(waiting := q.waiting[1..],
              nWaiting := q.nWaiting - 1,
              nPending := q.nPending + 1,
              pending := q.pending[head.url := head],
              inFlight := q.inFlight + [head]),
           Some(head))
  }

  /** Admitting keeps the invariant when its only possible breach, a waiting
      request beside a free slot, is one that a single admission repairs. */
  lemma ProcessKeepsValid(q: Queue)
    requires q.nWaiting == |q.waiting| && q.nPending == |q.inFlight|
    requires q.nPending <= q.maxPending || q.nPending == 0
    requires |q.waiting| > 1 ==> q.nPending + 1 >= q.maxPending
    requires forall u :: u in q.pending ==> q.pending[u].url == u && q.pending[u] in q.inFlight
    requires q.submitted == |q.waiting| + |q.inFlight| + q.completed
    requires FifoNumbering(q)
    ensures Valid(ProcessOneWaitingIfPossible(q).queue)
  {
    var r := ProcessOneWaitingIfPossible(q);
    if r.issued.Some? {
      var head := r.issued.value;
      var p := r.queue;
      assert head == q.waiting[0];
      assert head.id == q.submitted - |q.waiting|;
      forall k | 0 <= k < |p.waiting|
        ensures p.waiting[k].id == p.submitted - |p.waiting| + k
      {
        assert p.waiting[k] == q.waiting[k + 1];
      }
      forall a, b | 0 <= a < b < |p.inFlight|
        ensures p.inFlight[a].id != p.inFlight[b].id
      {
        if b < |q.inFlight| {
          assert p.inFlight[a] == q.inFlight[a] && p.inFlight[b] == q.inFlight[b];
        } else {
          assert p.inFlight[a] == q.inFlight[a];
        }
      }
      forall u | u in p.pending
        ensures p.pending[u].url == u && p.pending[u] in p.inFlight
      {
        if u != head.url {
          assert p.pending[u] == q.pending[u];
        }
      }
    }
  }

  /** fetch(url): queue the request, then admit one waiting request if possible. */
  function Fetch(q: Queue, url: string): (r: Step)
    requires Valid(q)
    ensures Valid(r.queue)
    ensures r.queue.submitted == q.submitted + 1 && r.queue.completed == q.completed
    ensures r.issued.Some? <==> q.nPending < q.maxPending
    ensures (if r.issued.Some? then [r.issued.value] else []) + r.queue.waiting
            == q.waiting + [Request(q.submitted, url)]
    ensures r.queue.nPending == q.nPending + (if r.issued.Some? then 1 else 0)
    ensures r.issued.Some? ==> r.issued.value.id == q.submitted - |q.waiting|
  {
    var added := AddToWaiting(q, url);
    assert added.waiting[|added.waiting| - 1].id == q.submitted;
    ProcessKeepsValid(added);
    ProcessOneWaitingIfPossible(added)
  }

  /** The in-flight list without its i-th request. */
  function RemoveAt(s: seq<Request>, i: nat): (r: seq<Request>)
    requires i < |s|
    ensures |r| == |s| - 1
    ensures forall k :: 0 <= k < |r| ==> r[k] == (if k < i then s[k] else s[k + 1])
  {
    s[..i] + s[i + 1..]
  }

  /** The first half of a settlement: request i is counted out of nPending
      and its url deleted from `pending`. */
  function FreeSlot(q: Queue, i: nat): (f: Queue)
    requires Valid(q) && i < |q.inFlight|
    ensures f.nWaiting == |f.waiting| && f.nPending == |f.inFlight|
    ensures f.nPending <= f.maxPending || f.nPending == 0
    ensures |f.waiting| > 0 ==> f.nPending + 1 >= f.maxPending
    ensures forall u :: u in f.pending ==> f.pending[u].url == u && f.pending[u] in f.inFlight
    ensures f.submitted == |f.waiting| + |f.inFlight| + f.completed
    ensures FifoNumbering(f)
    ensures f.waiting == q.waiting && f.submitted == q.submitted && f.completed == q.completed + 1
    ensures f.nPending == q.nPending - 1 && f.maxPending == q.maxPending
    ensures f.pending.Keys == q.pending.Keys - {q.inFlight[i].url}
  {
    var req := q.inFlight[i];
    var freed := q.(nPending := q.nPending - 1,
                    pending := q.pending - {req.url},
                    inFlight := RemoveAt(q.inFlight, i),
                    completed := q.completed + 1);
    FreeSlotKeepsLinks(q, i, freed);
    freed
  }

  lemma FreeSlotKeepsLinks(q: Queue, i: nat, f: Queue)
    requires Valid(q) && i < |q.inFlight|
    requires f == q.(nPending := q.nPending - 1,
                     pending := q.pending - {q.inFlight[i].url},
                     inFlight := RemoveAt(q.inFlight, i),
                     completed := q.completed + 1)
    ensures forall u :: u in f.pending ==> f.pending[u] in f.inFlight
    ensures FifoNumbering(f)
  {
    forall u | u in f.pending
      ensures f.pending[u] in f.inFlight
    {
      var p := q.pending[u];
      var j :| 0 <= j < |q.inFlight| && q.inFlight[j] == p;
      assert j != i;
      assert p == f.inFlight[if j < i then j else j - 1];
    }
    forall a, b | 0 <= a < b < |f.inFlight|
      ensures f.inFlight[a].id != f.inFlight[b].id
    {
      var a' := if a < i then a else a + 1;
      var b' := if b < i then b else b + 1;
      assert f.inFlight[a] == q.inFlight[a'] && f.inFlight[b] == q.inFlight[b'];
    }
    forall k | 0 <= k < |f.inFlight|
      ensures f.inFlight[k].id < f.submitted - |f.waiting|
    {
      assert f.inFlight[k] == q.inFlight[if k < i then k else k + 1];
    }
  }

  /** The settlement of in-flight request i, successful or not: the slot is
      freed and then one waiting request is admitted. */
  function Complete(q: Queue, i: nat, succeeded: bool): (r: Completion)
    requires Valid(q) && i < |q.inFlight|
    ensures Valid(r.queue)
    ensures r.settled.request == q.inFlight[i]
    ensures r.settled.Resolved? <==> succeeded
    ensures r.queue.completed == q.completed + 1 && r.queue.submitted == q.submitted
    ensures r.issued.Some? <==> |q.waiting| > 0
    ensures r.queue.nPending == q.nPending - 1 + (if r.issued.Some? then 1 else 0)
    ensures (if r.issued.Some? then [r.issued.value] else []) + r.queue.waiting == q.waiting
    ensures r.issued.Some? ==> r.issued.value.id == q.submitted - |q.waiting|
    ensures r.queue.pending.Keys
            == (q.pending.Keys - {q.inFlight[i].url})
               + (if r.issued.Some? then {r.issued.value.url} else {})
  {
    var req := q.inFlight[i];
    var freed := FreeSlot(q, i);
    ProcessKeepsValid(freed);
    var step := ProcessOneWaitingIfPossible(freed);
    Completion(if succeeded then Resolved(req) else Rejected(req), step.queue, step.issued)
  }

  /** Two in-flight requests for one url share the `pending` entry: after the
      first completes, the url is gone from `pending` while nPending still
      counts the second. */
  lemma SharedUrlLosesPendingEntry(url: string)
    ensures var q0 := Init(2);
            var q1 := Fetch(q0, url).queue;
            var q2 := Fetch(q1, url).queue;
            var q3 := Complete(q2, 0, true).queue;
            && |q2.inFlight| == 2 && q2.pending.Keys == {url}
            && url !in q3.pending && q3.nPending == 1
  {
  }

  datatype Event = FetchEvent(url: string) | CompleteEvent(index: nat, succeeded: bool)

  /** The number of requests ever admitted to the network. */
  function Admitted(q: Queue): int
  {
    q.submitted - |q.waiting|
  }

  /** One event; a completion of a request that is not in flight cannot occur
      and changes nothing. */
  function Apply(q: Queue, e: Event): (r: Step)
    requires Valid(q)
    ensures Valid(r.queue)
    ensures Admitted(r.queue) == Admitted(q) + (if r.issued.Some? then 1 else 0)
    ensures r.issued.Some? ==> r.issued.value.id == Admitted(q)
  {
    match e
    case FetchEvent(url) => Fetch(q, url)
    case CompleteEvent(i, ok) =>
      if i < |q.inFlight| then var c := Complete(q, i, ok); Step(c.queue, c.issued)
      else Step(q, None)
  }

  /** Applies a series of events and collects the admitted requests in order. */
  function Run(q: Queue, events: seq<Event>): (r: (Queue, seq<Request>))
    requires Valid(q)
    ensures Valid(r.0)
    decreases |events|
  {
    if |events| == 0 then (q, [])
    else
      var step := Apply(q, events[0]);
      var rest := Run(step.queue, events[1..]);
      (rest.0, (if step.issued.Some? then [step.issued.value] else []) + rest.1)
  }

  /** Admission is FIFO over any series of events: the admitted requests are
      exactly the next ones in submission order, with no gap and no repeat. */
  lemma {:induction false} AdmissionInSubmissionOrder(q: Queue, events: seq<Event>)
    requires Valid(q)
    ensures var r := Run(q, events);
            && |r.1| == Admitted(r.0) - Admitted(q)
            && forall k :: 0 <= k < |r.1| ==> r.1[k].id == Admitted(q) + k
    decreases |events|
  {
    if |events| > 0 {
      var step := Apply(q, events[0]);
      AdmissionInSubmissionOrder(step.queue, events[1..]);
    }
  }

  /** Completing the oldest in-flight request until none is left. */
  function DrainAll(q: Queue): (r: Queue)
    requires Valid(q) && q.maxPending >= 1
    ensures Valid(r) && r.waiting == [] && r.inFlight == []
    ensures r.submitted == q.submitted && r.completed == q.submitted
    decreases |q.waiting| + |q.inFlight|
  {
    if |q.inFlight| == 0 then q
    else DrainAll(Complete(q, 0, true).queue)
  }
}

=== FILE: land_manager.dfy ===
/** Model of land_manager.js: the slippy-map tile helpers and the map-update
    step of LandManager.updateLandForCameraPosition. The camera's tile
    coordinate is an input (its floating-point derivation is not modelled), and
    the asynchronous fetch is reported as the list of keys handed to it. */
module LandManager {
  import opened Wrappers
  import Decimal
  import Tiles

  /** A slippy-map tile coordinate [x, y, z]. */
  datatype TileCoord = TileCoord(x: int, y: int, z: nat)

  /** A decoded land feature; only its geometry type is kept. */
  datatype LandFeature = LandFeature(geometryType: string)

  /** One entry of landTileDetails. `hasObject3D` stands for the presence of the
      `object3D` field, which the drop pass deletes. */
  datatype LandTileDetail = LandTileDetail(key: string, tileCoord: TileCoord,
                                           landFeatures: seq<LandFeature>,
                                           loaded: bool, hasObject3D: bool)

  datatype LandState = LandState(z: nat, landFetchRadius: int, landDropRadius: int,
                                 landTileDetails: map<string, LandTileDetail>,
                                 lastTileKey: Option<string>)

  /** The state after one camera update and the keys whose fetch it started, in order. */
  datatype UpdateResult = UpdateResult(state: LandState, fetched: seq<string>)

  function Pow2(z: nat): (p: nat)
    ensures p >= 1
  {
    if z == 0 then 1 else 2 * Pow2(z - 1)
  }

  /** Wraps v into [0, n), written with the source's two branches. */
  function Wrap(v: int, n: int): (r: int)
    requires n > 0
    ensures 0 <= r < n
  {
    if v >= 0 then v % n else (n - (-v % n)) % n
  }

  /** Wrap is the (Euclidean) residue of v modulo n. */
  lemma WrapIsModulo(v: int, n: int)
    requires n > 0
    ensures Wrap(v, n) == v % n
    ensures (Wrap(v, n) - v) % n == 0
  {
    if v < 0 {
      var m := -v;
      var q, t := m / n, m % n;
      assert m == q * n + t;
      if t == 0 {
        Tiles.FloorDivUnique(n, 1, 0, n);
        Tiles.FloorDivUnique(v, -q, 0, n);
      } else {
        assert v == (-q - 1) * n + (n - t) by {
          assert (-q - 1) * n == -(q * n) - n;
        }
        Tiles.FloorDivUnique(v, -q - 1, n - t, n);
        Tiles.FloorDivUnique(n - t, 0, n - t, n);
      }
    }
    var w := v / n;
    assert v % n - v == -w * n;
    Tiles.FloorDivUnique(-w * n, -w, 0, n);
  }

  /** Clamps v into [0, n - 1]. */
  function Clamp(v: int, n: int): (r: int)
    ensures n >= 1 ==> 0 <= r <= n - 1
    ensures n >= 1 && 0 <= v <= n - 1 ==> r == v
    ensures n >= 1 && v < 0 ==> r == 0
    ensures n >= 1 && v > n - 1 ==> r == n - 1
  {
    if v <= 0 then 0
    else if v >= n - 1 then n - 1
    else v
  }

  /** Side length of the square of offsets -radius..radius (0 for a negative radius). */
  function Side(radius: int): nat
  {
    if radius >= 0 then 2 * radius + 1 else 0
  }

  /** The k-th coordinate produced by tileCoordsInRadius: offsets are enumerated
      with dx as the outer, slower index and dy as the inner one. */
  function CoordAt(tc: TileCoord, radius: int, k: int): (r: TileCoord)
    requires 0 <= k < Side(radius) * Side(radius)
    ensures r.z == tc.z
    ensures 0 <= r.x < Pow2(tc.z) && 0 <= r.y <= Pow2(tc.z) - 1
  {
    var n := Side(radius);
    TileCoord(Wrap(tc.x + k / n - radius, Pow2(tc.z)),
              Clamp(tc.y + k % n - radius, Pow2(tc.z)),
              tc.z)
  }

  function CoordsInRadius(tc: TileCoord, radius: int): (r: seq<TileCoord>)
    ensures |r| == Side(radius) * Side(radius)
  {
    seq(Side(radius) * Side(radius), k requires 0 <= k < Side(radius) * Side(radius) => CoordAt(tc, radius, k))
  }

  /** The (dx, dy) offset sits at position (dx + radius) * side + (dy + radius):
      dx-major order, each x wrapped and each y clamped. */
  lemma CoordsInRadiusOrder(tc: TileCoord, radius: int, dx: int, dy: int)
    requires -radius <= dx <= radius && -radius <= dy <= radius
    ensures 0 <= (dx + radius) * Side(radius) + (dy + radius) < |CoordsInRadius(tc, radius)|
    ensures CoordsInRadius(tc, radius)[(dx + radius) * Side(radius) + (dy + radius)]
            == TileCoord(Wrap(tc.x + dx, Pow2(tc.z)), Clamp(tc.y + dy, Pow2(tc.z)), tc.z)
  {
    var n := Side(radius);
    var k := (dx + radius) * n + (dy + radius);
    IndexSplit(dx + radius, dy + radius, n);
  }

  lemma IndexSplit(q: int, r: int, n: int)
    requires 0 <= q < n && 0 <= r < n
    ensures 0 <= q * n + r < n * n
    ensures (q * n + r) / n == q && (q * n + r) % n == r
  {
    Tiles.MulMonotonic(q + 1, n, n);
    Tiles.FloorDivUnique(q * n + r, q, r, n);
  }

  /** Near the poles several offsets clamp to the same y, so the list can repeat a
      coordinate: at zoom 0 every offset lands on the single tile. */
  lemma CoordsInRadiusMayRepeat(tc: TileCoord)
    requires tc.z == 0
    ensures CoordsInRadius(tc, 1)[0] == CoordsInRadius(tc, 1)[1] == TileCoord(0, 0, 0)
  {
  }

  /** tileCoordsInRadius with the source's nested loops. */
  method TileCoordsInRadius(tc: TileCoord, radius: int) returns (tiles: seq<TileCoord>)
    ensures |tiles| == Side(radius) * Side(radius)
    ensures forall k :: 0 <= k < |tiles| ==> tiles[k] == CoordAt(tc, radius, k)
    ensures tiles == CoordsInRadius(tc, radius)
  {
    var n := Side(radius);
    tiles := [];
    var dx := -radius;
    ghost var done := 0;
    while dx <= radius
      invariant radius >= 0 ==> -radius <= dx <= radius + 1
      invariant radius < 0 ==> dx == -radius
      invariant done == dx + radius && |tiles| == done * n && |tiles| <= n * n
      invariant forall k :: 0 <= k < |tiles| ==> tiles[k] == CoordAt(tc, radius, k)
    {
      var x := Wrap(tc.x + dx, Pow2(tc.z));
      var dy := -radius;
      while dy <= radius
        invariant -radius <= dy <= radius + 1
        invariant |tiles| == done * n + (dy + radius) && |tiles| <= n * n
        invariant forall k :: 0 <= k < |tiles| ==> tiles[k] == CoordAt(tc, radius, k)
      {
        var y := Clamp(tc.y + dy, Pow2(tc.z));
        IndexSplit(done, dy + radius, n);
        tiles := tiles + [TileCoord(x, y, tc.z)];
        dy := dy + 1;
      }
      Tiles.MulMonotonic(done + 1, n, n);
      dx := dx + 1;
      done := done + 1;
    }
  }

  /** The "z/x/y" key of a tile coordinate. */
  function TileCoordKey(tc: TileCoord): string
  {
    Decimal.IntToString(tc.z) + "/" + Decimal.IntToString(tc.x) + "/" + Decimal.IntToString(tc.y)
  }

  /** Position of the first `ch` in s, or |s| when there is none. */
  function FirstIndex(s: string, ch: char): (r: nat)
    ensures r <= |s|
    ensures r < |s| ==> s[r] == ch
    ensures forall i :: 0 <= i < r ==> s[i] != ch
  {
    if |s| == 0 then 0
    else if s[0] == ch then 0
    else 1 + FirstIndex(s[1..], ch)
  }

  /** Reads a "z/x/y" key back into a tile coordinate. */
  function ParseTileCoordKey(s: string): Option<TileCoord>
  {
    var i := FirstIndex(s, '/');
    if i == |s| then None
    else
      var rest := s[i + 1..];
      var j := FirstIndex(rest, '/');
      if j == |rest| then None
      else
        match (Decimal.ParseInt(s[..i]), Decimal.ParseInt(rest[..j]), Decimal.ParseInt(rest[j + 1..]))
        case (Some(z), Some(x), Some(y)) => if z >= 0 then Some(TileCoord(x, y, z)) else None
        case _ => None
  }

  lemma FirstIndexOfJoin(a: string, ch: char, b: string)
    requires ch !in a
    ensures FirstIndex(a + [ch] + b, ch) == |a|
  {
    var s := a + [ch] + b;
    var r := FirstIndex(s, ch);
    assert s[|a|] == ch;
  }

  /** Splitting a + "/" + b at its first slash gives back a and b. */
  lemma SplitAtSlash(a: string, b: string)
    requires '/' !in a
    ensures FirstIndex(a + "/" + b, '/') == |a|
    ensures (a + "/" + b)[..|a|] == a && (a + "/" + b)[|a| + 1..] == b
  {
    FirstIndexOfJoin(a, '/', b);
  }

  lemma NoSlash(v: int)
    ensures '/' !in Decimal.IntToString(v)
  {
  }

  /** Keys parse back to their coordinates. */
  lemma KeyRoundTrip(tc: TileCoord)
    ensures ParseTileCoordKey(TileCoordKey(tc)) == Some(tc)
  {
    var zs, xs, ys := Decimal.IntToString(tc.z), Decimal.IntToString(tc.x), Decimal.IntToString(tc.y);
    var s := TileCoordKey(tc);
    NoSlash(tc.z);
    NoSlash(tc.x);
    assert s == zs + "/" + (xs + "/" + ys);
    SplitAtSlash(zs, xs + "/" + ys);
    SplitAtSlash(xs, ys);
    Decimal.IntRoundTrip(tc.z);
    Decimal.IntRoundTrip(tc.x);
    Decimal.IntRoundTrip(tc.y);
  }

  /** Distinct coordinates have distinct keys. */
  lemma KeyInjective(a: TileCoord, b: TileCoord)
    ensures TileCoordKey(a) == TileCoordKey(b) <==> a == b
  {
    KeyRoundTrip(a);
    KeyRoundTrip(b);
  }

  /** Chebyshev distance on x and y, ignoring z and without wrapping x. */
  function TileDistance(a: TileCoord, b: TileCoord): (d: nat)
    ensures Tiles.Abs(a.x - b.x) <= d && Tiles.Abs(a.y - b.y) <= d
    ensures d == Tiles.Abs(a.x - b.x) || d == Tiles.Abs(a.y - b.y)
  {
    Tiles.TileIndexDistance(Tiles.TileIndex(a.x, a.y), Tiles.TileIndex(b.x, b.y))
  }

  /** Horizontally adjacent tiles across the x seam are as far apart as the
      world is wide, and the zoom does not enter the distance. */
  lemma TileDistanceIgnoresWrapAndZoom(y: int, z: nat, z': nat)
    ensures TileDistance(TileCoord(0, y, z), TileCoord(Pow2(z) - 1, y, z')) == Pow2(z) - 1
  {
  }

  /** The set of keys of a list of coordinates. */
  ghost function KeysOf<K>(keyOf: TileCoord -> K, coords: seq<TileCoord>): set<K>
  {
    set i | 0 <= i < |coords| :: keyOf(coords[i])
  }

  /** The entry created for a tile that enters the fetch radius. */
  function NewDetail(tc: TileCoord): LandTileDetail
  {
    LandTileDetail(TileCoordKey(tc), tc, [], false, false)
  }

  /** A freshly requested entry filed under `key`: not loaded, no features. */
  predicate IsFreshDetail<K(==)>(d: LandTileDetail, keyOf: TileCoord -> K, key: K)
  {
    keyOf(d.tileCoord) == key && d == NewDetail(d.tileCoord)
  }

  predicate NoRepeats<K(==)>(s: seq<K>)
  {
    forall p, q :: 0 <= p < q < |s| ==> s[p] != s[q]
  }

  /** Position of the first coordinate in `coords` whose key is `key`. */
  ghost function FirstAppearance<K>(keyOf: TileCoord -> K, coords: seq<TileCoord>, key: K): (i: nat)
    requires key in KeysOf(keyOf, coords)
    ensures i < |coords| && keyOf(coords[i]) == key
    ensures forall j :: 0 <= j < i ==> keyOf(coords[j]) != key
    decreases |coords|
  {
    if keyOf(coords[0]) == key then 0
    else
      KeysOfCons(keyOf, coords);
      var i := FirstAppearance(keyOf, coords[1..], key);
      assert forall j :: 1 <= j <= i ==> coords[j] == coords[1..][j - 1];
      1 + i
  }

  /** `keys` come from `coords` and are listed in the order of their first
      appearance there. */
  ghost predicate InFirstOrder<K>(keys: seq<K>, keyOf: TileCoord -> K, coords: seq<TileCoord>)
  {
    && (forall p :: 0 <= p < |keys| ==> keys[p] in KeysOf(keyOf, coords))
    && forall p, q :: 0 <= p < q < |keys| && keys[p] in KeysOf(keyOf, coords) && keys[q] in KeysOf(keyOf, coords) ==>
         FirstAppearance(keyOf, coords, keys[p]) < FirstAppearance(keyOf, coords, keys[q])
  }

  /** Keys in first-appearance order in the rest of the coordinates stay so
      in the whole, with or without the first coordinate's key in front. */
  lemma FirstOrderCons<K>(keyOf: TileCoord -> K, coords: seq<TileCoord>, keys: seq<K>)
    requires |coords| > 0 && InFirstOrder(keys, keyOf, coords[1..]) && keyOf(coords[0]) !in keys
    ensures InFirstOrder(keys, keyOf, coords)
    ensures InFirstOrder([keyOf(coords[0])] + keys, keyOf, coords)
  {
    KeysOfCons(keyOf, coords);
    forall p | 0 <= p < |keys|
      ensures keys[p] in KeysOf(keyOf, coords)
              && FirstAppearance(keyOf, coords, keys[p]) == 1 + FirstAppearance(keyOf, coords[1..], keys[p])
    {
    }
    var t := [keyOf(coords[0])] + keys;
    forall p | 0 < p < |t|
      ensures t[p] == keys[p - 1]
    {
    }
  }

  /** The drop pass: entries farther than the drop radius from the camera lose
      their object3D field; the entry itself stays. (`landFeatures` is always an
      array, hence always truthy, so only the distance decides.) */
  function DropFar(details: map<string, LandTileDetail>, camera: TileCoord, dropRadius: int)
    : (r: map<string, LandTileDetail>)
    ensures r.Keys == details.Keys
    ensures forall key :: key in details ==>
              r[key] == details[key].(hasObject3D := details[key].hasObject3D
                                        && TileDistance(camera, details[key].tileCoord) <= dropRadius)
  {
    map key | key in details ::
      if TileDistance(camera, details[key].tileCoord) > dropRadius
      then details[key].(hasObject3D := false)
      else details[key]
  }

  /** The add pass over the coordinates, in order: a coordinate whose key is
      absent gets a fresh entry and one fetch; a present key is skipped. The key
      function is a parameter (TileCoordKey in the source). */
  function AddMissing<K(==,!new)>(details: map<K, LandTileDetail>, coords: seq<TileCoord>, keyOf: TileCoord -> K)
    : (r: (map<K, LandTileDetail>, seq<K>))
    ensures r.0.Keys == details.Keys + KeysOf(keyOf, coords)
    ensures forall key :: key in details ==> r.0[key] == details[key]
    ensures forall key :: key in r.0 && key !in details ==> IsFreshDetail(r.0[key], keyOf, key)
    ensures forall key :: key in r.1 <==> key in r.0 && key !in details
    ensures NoRepeats(r.1)
    ensures InFirstOrder(r.1, keyOf, coords)
    decreases |coords|
  {
    if |coords| == 0 then (details, [])
    else
      var key := keyOf(coords[0]);
      var isNew := key !in details;
      var next := if isNew then details[key := NewDetail(coords[0])] else details;
      var rest := AddMissing(next, coords[1..], keyOf);
      KeysOfCons(keyOf, coords);
      FirstOrderCons(keyOf, coords, rest.1);
      if isNew then
        NoRepeatsCons(key, rest.1);
        (rest.0, [key] + rest.1)
      else rest
  }

  lemma NoRepeatsCons<K>(key: K, rest: seq<K>)
    requires key !in rest && NoRepeats(rest)
    ensures NoRepeats([key] + rest)
  {
    var t := [key] + rest;
    forall p, q | 0 <= p < q < |t|
      ensures t[p] != t[q]
    {
      assert t[q] == rest[q - 1];
      if p > 0 {
        assert t[p] == rest[p - 1];
      }
    }
  }

  lemma KeysOfCons<K>(keyOf: TileCoord -> K, coords: seq<TileCoord>)
    requires |coords| > 0
    ensures KeysOf(keyOf, coords) == {keyOf(coords[0])} + KeysOf(keyOf, coords[1..])
  {
    forall key | key in KeysOf(keyOf, coords)
      ensures key in {keyOf(coords[0])} + KeysOf(keyOf, coords[1..])
    {
      var i :| 0 <= i < |coords| && key == keyOf(coords[i]);
      if i > 0 {
        assert coords[1..][i - 1] == coords[i];
      }
    }
    forall key | key in KeysOf(keyOf, coords[1..])
      ensures key in KeysOf(keyOf, coords)
    {
      var i :| 0 <= i < |coords[1..]| && key == keyOf(coords[1..][i]);
      assert coords[i + 1] == coords[1..][i];
    }
  }

  /** updateLandForCameraPosition for a camera over tile (cameraX, cameraY). */
  function Update(s: LandState, cameraX: int, cameraY: int): (r: UpdateResult)
    ensures var camera := TileCoord(cameraX, cameraY, s.z);
            var key := TileCoordKey(camera);
            if s.lastTileKey == Some(key) then r == UpdateResult(s, [])
            else
              var wanted := CoordsInRadius(camera, s.landFetchRadius);
              var before, after := s.landTileDetails, r.state.landTileDetails;
              && r.state == s.(landTileDetails := after, lastTileKey := Some(key))
              && after.Keys == before.Keys + KeysOf(TileCoordKey, wanted)
              && (forall i :: 0 <= i < |wanted| ==> TileCoordKey(wanted[i]) in after)
              && (forall k :: k in before ==> after[k] == before[k].(hasObject3D := after[k].hasObject3D))
              && (forall k :: k in after && k !in before ==> IsFreshDetail(after[k], TileCoordKey, k))
              && (forall k :: k in r.fetched <==> k in after && k !in before)
              && NoRepeats(r.fetched)
              && InFirstOrder(r.fetched, TileCoordKey, wanted)
  {
    var camera := TileCoord(cameraX, cameraY, s.z);
    var key := TileCoordKey(camera);
    if s.lastTileKey == Some(key) then UpdateResult(s, [])
    else
      var wanted := CoordsInRadius(camera, s.landFetchRadius);
      var dropped := DropFar(s.landTileDetails, camera, s.landDropRadius);
      var added := AddMissing(dropped, wanted, TileCoordKey);
      assert forall i :: 0 <= i < |wanted| ==> TileCoordKey(wanted[i]) in KeysOf(TileCoordKey, wanted);
      UpdateResult(s.(landTileDetails := added.0, lastTileKey := Some(key)), added.1)
  }

  /** The keys of landTileDetails after each of a series of camera updates. */
  function UpdateAll(s: LandState, cameras: seq<(int, int)>): LandState
    decreases |cameras|
  {
    if |cameras| == 0 then s
    else UpdateAll(Update(s, cameras[0].0, cameras[0].1).state, cameras[1..])
  }

  /** Across any series of updates the key set only grows: the drop pass never
      removes an entry. */
  lemma {:induction false} KeysOnlyGrow(s: LandState, cameras: seq<(int, int)>)
    ensures s.landTileDetails.Keys <= UpdateAll(s, cameras).landTileDetails.Keys
    decreases |cameras|
  {
    if |cameras| > 0 {
      KeysOnlyGrow(Update(s, cameras[0].0, cameras[0].1).state, cameras[1..]);
    }
  }

  /** No entry of landTileDetails ever receives an object3D field. */
  predicate NoObject3D(s: LandState)
  {
    forall k :: k in s.landTileDetails ==> !s.landTileDetails[k].hasObject3D
  }

  /** Since no entry ever carries object3D, the drop pass changes nothing, and
      updates keep it that way. */
  lemma DropChangesNothing(s: LandState, cameraX: int, cameraY: int)
    requires NoObject3D(s)
    ensures DropFar(s.landTileDetails, TileCoord(cameraX, cameraY, s.z), s.landDropRadius) == s.landTileDetails
    ensures NoObject3D(Update(s, cameraX, cameraY).state)
  {
  }

  /** The fetch callback once the tile data is decoded: without a land layer
      nothing changes; otherwise the entry is marked loaded and the layer's
      features are appended. */
  function TileLoaded(s: LandState, key: string, hasLandLayer: bool, features: seq<LandFeature>)
    : (r: LandState)
    ensures r.landTileDetails.Keys == s.landTileDetails.Keys
    ensures forall k :: k in s.landTileDetails && k != key ==> r.landTileDetails[k] == s.landTileDetails[k]
    ensures key in s.landTileDetails && hasLandLayer ==>
              && r.landTileDetails[key].loaded
              && r.landTileDetails[key].landFeatures == s.landTileDetails[key].landFeatures + features
              && r.landTileDetails[key].tileCoord == s.landTileDetails[key].tileCoord
              && r.landTileDetails[key].key == s.landTileDetails[key].key
              && r.landTileDetails[key].hasObject3D == s.landTileDetails[key].hasObject3D
    ensures r.(landTileDetails := s.landTileDetails) == s
    ensures !hasLandLayer ==> r == s
  {
    if key !in s.landTileDetails || !hasLandLayer then s
    else
      var d := s.landTileDetails[key];
      s.(landTileDetails := s.landTileDetails[key := d.(loaded := true, landFeatures := d.landFeatures + features)])
  }

  // ---- The drop pass as evidently intended ----

  /** The drop pass removing far entries instead of a field they never have. */
  function DropFarEvicting(details: map<string, LandTileDetail>, camera: TileCoord, dropRadius: int)
    : (r: map<string, LandTileDetail>)
    ensures forall key :: key in r <==> key in details && TileDistance(camera, details[key].tileCoord) <= dropRadius
    ensures forall key :: key in r ==> r[key] == details[key]
  {
    map key | key in details && TileDistance(camera, details[key].tileCoord) <= dropRadius :: details[key]
  }

  /** The evicting drop pass followed by the add pass: near entries survive
      unchanged, far ones survive only when the add pass wants them again, and
      whatever was not fetched is an unchanged near entry. */
  lemma EvictThenAdd(before: map<string, LandTileDetail>, camera: TileCoord, dropRadius: int, wanted: seq<TileCoord>)
    ensures var added := AddMissing(DropFarEvicting(before, camera, dropRadius), wanted, TileCoordKey);
            var after := added.0;
            && (forall k :: k in before && TileDistance(camera, before[k].tileCoord) <= dropRadius ==>
                  k in after && after[k] == before[k])
            && (forall k :: k in after && k !in added.1 ==>
                  k in before && after[k] == before[k] && TileDistance(camera, after[k].tileCoord) <= dropRadius)
            && (forall k :: (k in before && TileDistance(camera, before[k].tileCoord) > dropRadius
                             && k !in KeysOf(TileCoordKey, wanted)) ==> k !in after)
  {
    var kept := DropFarEvicting(before, camera, dropRadius);
    var added := AddMissing(kept, wanted, TileCoordKey);
    assert forall k :: k in before && TileDistance(camera, before[k].tileCoord) <= dropRadius ==> k in kept;
  }

  /** updateLandForCameraPosition with the evicting drop pass. */
  function UpdateEvicting(s: LandState, cameraX: int, cameraY: int): (r: UpdateResult)
    ensures var camera := TileCoord(cameraX, cameraY, s.z);
            var key := TileCoordKey(camera);
            if s.lastTileKey == Some(key) then r == UpdateResult(s, [])
            else
              var wanted := CoordsInRadius(camera, s.landFetchRadius);
              var before, after := s.landTileDetails, r.state.landTileDetails;
              var kept := DropFarEvicting(before, camera, s.landDropRadius);
              && r.state == s.(landTileDetails := after, lastTileKey := Some(key))
              && after.Keys == kept.Keys + KeysOf(TileCoordKey, wanted)
              && (forall i :: 0 <= i < |wanted| ==> TileCoordKey(wanted[i]) in after)
              && (forall k :: k in before && TileDistance(camera, before[k].tileCoord) <= s.landDropRadius ==>
                    k in after && after[k] == before[k])
              && (forall k :: k in after && k !in kept ==> IsFreshDetail(after[k], TileCoordKey, k))
              && (forall k :: k in r.fetched <==> k in after && k !in kept)
              && (forall k :: k in after && k !in r.fetched ==>
                    k in s.landTileDetails && after[k] == s.landTileDetails[k]
                    && TileDistance(camera, after[k].tileCoord) <= s.landDropRadius)
              && (forall k :: (k in s.landTileDetails
                                 && TileDistance(camera, s.landTileDetails[k].tileCoord) > s.landDropRadius
                                 && k !in KeysOf(TileCoordKey, wanted)) ==> k !in after)
              && NoRepeats(r.fetched)
              && InFirstOrder(r.fetched, TileCoordKey, wanted)
  {
    var camera := TileCoord(cameraX, cameraY, s.z);
    var key := TileCoordKey(camera);
    if s.lastTileKey == Some(key) then UpdateResult(s, [])
    else
      var wanted := CoordsInRadius(camera, s.landFetchRadius);
      var dropped := DropFarEvicting(s.landTileDetails, camera, s.landDropRadius);
      var added := AddMissing(dropped, wanted, TileCoordKey);
      EvictThenAdd(s.landTileDetails, camera, s.landDropRadius, wanted);
      assert forall i :: 0 <= i < |wanted| ==> TileCoordKey(wanted[i]) in KeysOf(TileCoordKey, wanted);
      UpdateResult(s.(landTileDetails := added.0, lastTileKey := Some(key)), added.1)
  }

  /** As written, a tile far beyond the drop radius survives the update: with
      fetch and drop radius 0 and the camera at tile (0, 0), the entry for tile
      (5, 5) is still present afterwards; the evicting update removes it. */
  lemma FarTileSurvivesDrop(z: nat)
    requires z >= 3
    ensures var far := TileCoord(5, 5, z);
            var s := LandState(z, 0, 0,
                               map[TileCoordKey(far) := LandTileDetail(TileCoordKey(far), far, [], true, false)],
                               None);
            && TileDistance(TileCoord(0, 0, z), far) > s.landDropRadius
            && TileCoordKey(far) in Update(s, 0, 0).state.landTileDetails
            && TileCoordKey(far) !in UpdateEvicting(s, 0, 0).state.landTileDetails
  {
    var far := TileCoord(5, 5, z);
    var camera := TileCoord(0, 0, z);
    var s := LandState(z, 0, 0,
                       map[TileCoordKey(far) := LandTileDetail(TileCoordKey(far), far, [], true, false)],
                       None);
    var wanted := CoordsInRadius(camera, 0);
    CoordsInRadiusOrder(camera, 0, 0, 0);
    assert |wanted| == 1 && wanted[0] == camera;
    KeyInjective(far, camera);
    assert TileCoordKey(far) !in KeysOf(TileCoordKey, wanted);
    UpdateKeepsKeys(s, 0, 0);
    EvictingDropsFar(s, 0, 0, TileCoordKey(far));
  }

  lemma UpdateKeepsKeys(s: LandState, cameraX: int, cameraY: int)
    ensures s.landTileDetails.Keys <= Update(s, cameraX, cameraY).state.landTileDetails.Keys
  {
  }

  lemma EvictingDropsFar(s: LandState, cameraX: int, cameraY: int, k: string)
    requires s.lastTileKey.None?
    requires k in s.landTileDetails
    requires TileDistance(TileCoord(cameraX, cameraY, s.z), s.landTileDetails[k].tileCoord) > s.landDropRadius
    requires k !in KeysOf(TileCoordKey, CoordsInRadius(TileCoord(cameraX, cameraY, s.z), s.landFetchRadius))
    ensures k !in UpdateEvicting(s, cameraX, cameraY).state.landTileDetails
  {
  }
}

=== FILE: main_view.dfy ===
/** The feature-loading rules of main.js: the cycling pseudo-random index,
    processFeatures with its exclusion list and dispatch, loadFeature,
    loadBasementWalkout and the completion counter of load3dModel. */
module MainView {
  import opened Wrappers
  import opened Features
  import opened Visibility
  import opened Scene
  import opened Extrusion
  import Tiles

  // ---------------------------------------------------------------------
  // MyMath.random

  datatype MyMath = MyMath(index: int)

  /** MyMath before its first call. */
  const INITIAL_MY_MATH: MyMath := MyMath(-1)

  /** MyMath.random: advance the index, back to 0 past the last entry, and
      return that entry (None for the undefined read of an empty array). */
  function Random(m: MyMath, randoms: seq<real>): (r: (MyMath, Option<real>))
    ensures |randoms| > 0 && -1 <= m.index < |randoms| ==>
              && 0 <= r.0.index < |randoms|
              && r.0.index == (m.index + 1) % |randoms|
              && r.1 == Some(randoms[r.0.index])
    ensures |randoms| == 0 ==> r.1.None?
  {
    var i := if m.index + 1 >= |randoms| then 0 else m.index + 1;
    NextIndexWraps(m.index, |randoms|);
    (MyMath(i), if 0 <= i < |randoms| then Some(randoms[i]) else None)
  }

  /** Stepping an index in [-1, n) and resetting it at n is adding one mod n. */
  lemma NextIndexWraps(index: int, n: int)
    ensures n > 0 && -1 <= index < n ==> (if index + 1 >= n then 0 else index + 1) == (index + 1) % n
  {
    if n > 0 && -1 <= index < n {
      if index + 1 < n {
        Tiles.FloorDivUnique(index + 1, 0, index + 1, n);
      } else {
        Tiles.FloorDivUnique(index + 1, 1, 0, n);
      }
    }
  }

  /** The results of k successive calls. */
  function Draws(m: MyMath, randoms: seq<real>, k: nat): (r: (MyMath, seq<Option<real>>))
    ensures |r.1| == k
    decreases k
  {
    if k == 0 then (m, [])
    else
      var first := Random(m, randoms);
      var rest := Draws(first.0, randoms, k - 1);
      (rest.0, [first.1] + rest.1)
  }

  /** The draws run through the array in order, cycling. */
  lemma {:induction false} DrawsCycle(m: MyMath, randoms: seq<real>, k: nat)
    requires |randoms| > 0 && -1 <= m.index < |randoms|
    ensures forall j :: 0 <= j < k ==> Draws(m, randoms, k).1[j] == Some(randoms[(m.index + 1 + j) % |randoms|])
    ensures 0 <= Draws(m, randoms, k).0.index < |randoms| || (k == 0 && m.index == -1)
    decreases k
  {
    if k > 0 {
      var first := Random(m, randoms);
      DrawsCycle(first.0, randoms, k - 1);
      var n := |randoms|;
      forall j | 1 <= j < k
        ensures Draws(m, randoms, k).1[j] == Some(randoms[(m.index + 1 + j) % n])
      {
        assert Draws(m, randoms, k).1[j] == Draws(first.0, randoms, k - 1).1[j - 1];
        ModuloShift(m.index + 1, j, n);
      }
    }
  }

  /** ((a % n) + j) % n == (a + j) % n, the step DrawsCycle needs. */
  lemma ModuloShift(a: int, j: int, n: int)
    requires n > 0 && 0 <= a && j >= 1
    ensures (a % n + j - 1 + 1) % n == (a + j) % n
  {
    var q := a / n;
    assert a == q * n + a % n;
    assert a + j == q * n + (a % n + j);
    ShiftByMultiple(a % n + j, q, n);
  }

  lemma ShiftByMultiple(x: int, q: int, n: int)
    requires n > 0
    ensures (q * n + x) % n == x % n
  {
    var r := x % n;
    var d := x / n;
    assert x == d * n + r;
    assert q * n + x == (q + d) * n + r;
    Tiles.FloorDivUnique(q * n + x, q + d, r, n);
  }

  // ---------------------------------------------------------------------
  // processFeatures

  /** The dispatch of processFeatures: building, else sidewalk, else basement
      walkout, else unsupported. */
  function Classify(p: Properties): (k: Kind)
    ensures k == Building <==> TruthyText(p.building)
    ensures k == Sidewalk <==> !TruthyText(p.building) && TruthyText(p.sidewalk)
    ensures k == BasementWalkout <==> !TruthyText(p.building) && !TruthyText(p.sidewalk)
                                      && TruthyText(p.basementWalkout)
  {
    if TruthyText(p.building) then Building
    else if TruthyText(p.sidewalk) then Sidewalk
    else if TruthyText(p.basementWalkout) then BasementWalkout
    else Unsupported
  }

  /** loadFeature: the depth comes from the level count unless a truthy
      extrudeDepth option overrides it; the mesh is added first-wins. */
  function LoadFeature(s: SceneState, f: Feature, numberOfLevels: real, extrudeDepth: Option<real>,
                       year: int, number: string -> Year): (r: SceneState)
    ensures r.idToMesh.Keys == s.idToMesh.Keys + {f.properties.id}
    ensures forall k :: k in s.idToMesh ==> r.idToMesh[k] == s.idToMesh[k]
    ensures r.(idToMesh := s.idToMesh) == s
    ensures f.properties.id !in s.idToMesh ==>
              var d := r.idToMesh[f.properties.id].depth;
              && (TruthyNumber(extrudeDepth) ==> d == extrudeDepth.value)
              && (!TruthyNumber(extrudeDepth) && numberOfLevels > 0.0 ==>
                    d == -numberOfLevels * AVERAGE_STOREY_HEIGHT_METERS)
              && (!TruthyNumber(extrudeDepth) && numberOfLevels <= 0.0 ==> d == -MINIMUM_EXTRUSION_METERS)
    ensures f.properties.id !in s.idToMesh ==>
              && r.idToMesh[f.properties.id].name == f.properties.id
              && r.idToMesh[f.properties.id].positionY == 0.0
              && (r.idToMesh[f.properties.id].visible <==> DatesAdmit(f.properties, year, number))
  {
    var depth := Depth(extrudeDepth, None, numberOfLevels, AVERAGE_STOREY_HEIGHT_METERS, MINIMUM_EXTRUSION_METERS);
    AddMeshFirstWins(s, f.properties, Mesh(f.properties.id, depth, 0.0, true), year, number)
  }

  /** The ground hole a basement walkout cuts. */
  function WalkoutHole(f: Feature): Hole<Ring>
  {
    Hole(f.ring, f.properties.startDate, f.properties.endDate)
  }

  /** loadBasementWalkout: the hole is pushed whatever the id, the sunken
      mesh (depth min_level storeys, lowered by the same amount) is added
      first-wins, and the ground is rebuilt. */
  function LoadBasementWalkout(s: SceneState, f: Feature, year: int, number: string -> Year): (r: SceneState)
    ensures r.holes == s.holes + [WalkoutHole(f)]
    ensures r.groundHoles == VisibleHoles(s.holes, year, number)
                             + (if HoleVisible(WalkoutHole(f), year, number) then [f.ring] else [])
    ensures r.idToMesh.Keys == s.idToMesh.Keys + {f.properties.id}
    ensures forall k :: k in s.idToMesh ==> r.idToMesh[k] == s.idToMesh[k]
    ensures f.properties.id !in s.idToMesh ==>
              && r.idToMesh[f.properties.id].depth == f.properties.minLevel * AVERAGE_STOREY_HEIGHT_METERS
              && r.idToMesh[f.properties.id].positionY == r.idToMesh[f.properties.id].depth
              && r.idToMesh[f.properties.id].name == f.properties.id
              && (r.idToMesh[f.properties.id].visible <==> DatesAdmit(f.properties, year, number))
    ensures r.groundHoles == VisibleHoles(r.holes, year, number)
    ensures r.idToModel == s.idToModel && r.idToFeatureProperties == s.idToFeatureProperties
  {
    var holes := s.holes + [WalkoutHole(f)];
    var depth := f.properties.minLevel * AVERAGE_STOREY_HEIGHT_METERS;
    var added := AddMeshFirstWins(s.(holes := holes), f.properties, Mesh(f.properties.id, depth, depth, true),
                                  year, number);
    VisibleHolesAppend(s.holes, [WalkoutHole(f)], year, number);
    UpdateGround(added, year, number)
  }

  /** The mesh processFeatures loads a feature of a supported kind as: named
      after properties.id and visible by the feature's dates; a building is
      extruded by its level count, or by the minimum without levels; a
      sidewalk by the fixed sidewalk depth; a walkout is min_level storeys
      deep and sunk by as much. */
  predicate LoadedAs(m: Mesh, f: Feature, year: int, number: string -> Year)
  {
    var p := f.properties;
    var levels := NumberOfLevels(p);
    && m.name == p.id
    && (m.visible <==> DatesAdmit(p, year, number))
    && (Classify(p) == Building ==>
          && m.positionY == 0.0
          && (levels > 0.0 ==> m.depth == -levels * AVERAGE_STOREY_HEIGHT_METERS)
          && (levels <= 0.0 ==> m.depth == -MINIMUM_EXTRUSION_METERS))
    && (Classify(p) == Sidewalk ==> m.positionY == 0.0 && m.depth == SIDEWALK_EXTRUDE_DEPTH)
    && (Classify(p) == BasementWalkout ==>
          m.depth == p.minLevel * AVERAGE_STOREY_HEIGHT_METERS && m.positionY == m.depth)
  }

  /** The feature is not excluded and of a kind that is drawn. */
  predicate Loads(f: Feature, excluded: set<string>)
  {
    f.id !in excluded && Classify(f.properties) != Unsupported
  }

  /** features[j] is drawn, and no earlier drawn feature has its properties.id. */
  predicate FirstToLoad(features: seq<Feature>, excluded: set<string>, j: int)
    requires 0 <= j < |features|
  {
    && Loads(features[j], excluded)
    && forall l :: 0 <= l < j && Loads(features[l], excluded) ==>
         features[l].properties.id != features[j].properties.id
  }

  /** One feature of the response. */
  function ProcessFeature(s: SceneState, f: Feature, excluded: set<string>, year: int,
                          number: string -> Year): (r: SceneState)
    ensures f.id in excluded ==> r == s
    ensures f.id !in excluded ==>
              && r.idToFeatureProperties == s.idToFeatureProperties[f.id := f.properties]
              && r.idToMesh.Keys == s.idToMesh.Keys
                                   + (if Classify(f.properties) == Unsupported then {} else {f.properties.id})
              && r.holes == s.holes + (if Classify(f.properties) == BasementWalkout then [WalkoutHole(f)] else [])
    ensures r.idToFeatureProperties.Keys == s.idToFeatureProperties.Keys + (if f.id !in excluded then {f.id} else {})
    ensures forall k :: k in s.idToMesh ==> r.idToMesh[k] == s.idToMesh[k]
    ensures Loads(f, excluded) && f.properties.id !in s.idToMesh ==>
              LoadedAs(r.idToMesh[f.properties.id], f, year, number)
    ensures r.groundHoles == if f.id !in excluded && Classify(f.properties) == BasementWalkout
                            then VisibleHoles(r.holes, year, number) else s.groundHoles
    ensures r.idToModel == s.idToModel
  {
    if f.id in excluded then s
    else
      var recorded := s.(idToFeatureProperties := s.idToFeatureProperties[f.id := f.properties]);
      var levels := NumberOfLevels(f.properties);
      match Classify(f.properties)
      case Building => LoadFeature(recorded, f, levels, None, year, number)
      case Sidewalk => LoadFeature(recorded, f, levels, Some(SIDEWALK_EXTRUDE_DEPTH), year, number)
      case BasementWalkout => LoadBasementWalkout(recorded, f, year, number)
      case Unsupported => recorded
  }

  /** The ids meshes are stored under for a response. */
  function MeshIds(features: seq<Feature>, excluded: set<string>): set<string>
  {
    set f | f in features && f.id !in excluded && Classify(f.properties) != Unsupported :: f.properties.id
  }

  /** The ids of the features of a response that are not excluded. */
  function KeptIds(features: seq<Feature>, excluded: set<string>): set<string>
  {
    set f | f in features && f.id !in excluded :: f.id
  }

  /** The walkout holes of a response, in order. */
  function WalkoutHoles(features: seq<Feature>, excluded: set<string>): seq<Hole<Ring>>
    decreases |features|
  {
    if |features| == 0 then []
    else
      var f := features[0];
      (if f.id !in excluded && Classify(f.properties) == BasementWalkout then [WalkoutHole(f)] else [])
      + WalkoutHoles(features[1..], excluded)
  }

  /** processFeatures: excluded features are skipped; the others record
      their properties and are dispatched in order. A mesh already stored is
      never replaced, so a new mesh comes from the first drawn feature with
      its properties.id, while the properties recorded under an id are those
      of the last kept feature with that id. The ground is rebuilt when a
      walkout is loaded. */
  function ProcessFeatures(s: SceneState, features: seq<Feature>, excluded: set<string>, year: int,
                           number: string -> Year): (r: SceneState)
    ensures forall k :: k in s.idToMesh ==> k in r.idToMesh && r.idToMesh[k] == s.idToMesh[k]
    ensures r.idToMesh.Keys == s.idToMesh.Keys + MeshIds(features, excluded)
    ensures r.idToFeatureProperties.Keys
            == s.idToFeatureProperties.Keys + KeptIds(features, excluded)
    ensures r.holes == s.holes + WalkoutHoles(features, excluded)
    ensures forall j :: 0 <= j < |features| && FirstToLoad(features, excluded, j)
                        && features[j].properties.id !in s.idToMesh ==>
              features[j].properties.id in r.idToMesh
              && LoadedAs(r.idToMesh[features[j].properties.id], features[j], year, number)
    ensures forall j :: 0 <= j < |features| && features[j].id !in excluded && LastWithFeatureId(features, j) ==>
              features[j].id in r.idToFeatureProperties
              && r.idToFeatureProperties[features[j].id] == features[j].properties
    ensures forall id :: id in s.idToFeatureProperties && id !in KeptIds(features, excluded) ==>
              id in r.idToFeatureProperties && r.idToFeatureProperties[id] == s.idToFeatureProperties[id]
    ensures r.groundHoles == if |WalkoutHoles(features, excluded)| > 0 then VisibleHoles(r.holes, year, number)
                            else s.groundHoles
    ensures r.idToModel == s.idToModel
    decreases |features|
  {
    if |features| == 0 then s
    else
      var next := ProcessFeature(s, features[0], excluded, year, number);
      var r := ProcessFeatures(next, features[1..], excluded, year, number);
      ResponseCons(features, excluded);
      var first := if features[0].id !in excluded && Classify(features[0].properties) == BasementWalkout
                   then [WalkoutHole(features[0])] else [];
      var f := features[0];
      var kept := f.id !in excluded;
      assert next.holes == s.holes + first;
      AppendAssoc(s.holes, first, WalkoutHoles(features[1..], excluded));
      UnionStep(s.idToMesh.Keys, next.idToMesh.Keys, r.idToMesh.Keys,
                if kept && Classify(f.properties) != Unsupported then {f.properties.id} else {},
                MeshIds(features[1..], excluded), MeshIds(features, excluded));
      UnionStep(s.idToFeatureProperties.Keys, next.idToFeatureProperties.Keys, r.idToFeatureProperties.Keys,
                if kept then {f.id} else {},
                KeptIds(features[1..], excluded),
                KeptIds(features, excluded));
      MeshContentsStep(s, next, r, features, excluded, year, number);
      PropertiesStep(s, next, r, features, excluded, year, number);
      PropertiesUntouchedStep(s, next, r, features, excluded, year, number);
      GroundStep(s, next, r, features, excluded, year, number);
      r
  }

  /** The mesh contents of processFeatures, from those of the rest of the
      response and the first feature's step. */
  lemma MeshContentsStep(s: SceneState, next: SceneState, r: SceneState, features: seq<Feature>,
                         excluded: set<string>, year: int, number: string -> Year)
    requires |features| > 0 && next == ProcessFeature(s, features[0], excluded, year, number)
    requires forall k :: k in next.idToMesh ==> k in r.idToMesh && r.idToMesh[k] == next.idToMesh[k]
    requires forall j :: 0 <= j < |features[1..]| && FirstToLoad(features[1..], excluded, j)
                         && features[1..][j].properties.id !in next.idToMesh ==>
               features[1..][j].properties.id in r.idToMesh
               && LoadedAs(r.idToMesh[features[1..][j].properties.id], features[1..][j], year, number)
    ensures forall j :: 0 <= j < |features| && FirstToLoad(features, excluded, j)
                        && features[j].properties.id !in s.idToMesh ==>
              features[j].properties.id in r.idToMesh
              && LoadedAs(r.idToMesh[features[j].properties.id], features[j], year, number)
  {
    var rest := features[1..];
    forall j | 0 <= j < |features| && FirstToLoad(features, excluded, j) && features[j].properties.id !in s.idToMesh
      ensures features[j].properties.id in r.idToMesh
              && LoadedAs(r.idToMesh[features[j].properties.id], features[j], year, number)
    {
      if j > 0 {
        assert rest[j - 1] == features[j];
        forall l | 0 <= l < j - 1 && Loads(rest[l], excluded)
          ensures rest[l].properties.id != rest[j - 1].properties.id
        {
          assert rest[l] == features[l + 1];
        }
        assert FirstToLoad(rest, excluded, j - 1);
      }
    }
  }

  /** The recorded properties of processFeatures, from those of the rest of
      the response and the first feature's step: the last kept feature with
      an id wins it. */
  lemma PropertiesStep(s: SceneState, next: SceneState, r: SceneState, features: seq<Feature>,
                       excluded: set<string>, year: int, number: string -> Year)
    requires |features| > 0 && next == ProcessFeature(s, features[0], excluded, year, number)
    requires forall j :: 0 <= j < |features[1..]| && features[1..][j].id !in excluded
                         && LastWithFeatureId(features[1..], j) ==>
               features[1..][j].id in r.idToFeatureProperties
               && r.idToFeatureProperties[features[1..][j].id] == features[1..][j].properties
    requires forall id :: id in next.idToFeatureProperties && id !in KeptIds(features[1..], excluded) ==>
               id in r.idToFeatureProperties && r.idToFeatureProperties[id] == next.idToFeatureProperties[id]
    ensures forall j :: 0 <= j < |features| && features[j].id !in excluded && LastWithFeatureId(features, j) ==>
              features[j].id in r.idToFeatureProperties
              && r.idToFeatureProperties[features[j].id] == features[j].properties
  {
    var rest := features[1..];
    forall j | 0 <= j < |features| && features[j].id !in excluded && LastWithFeatureId(features, j)
      ensures features[j].id in r.idToFeatureProperties
              && r.idToFeatureProperties[features[j].id] == features[j].properties
    {
      if j == 0 {
        NotKeptLater(features, excluded);
      } else {
        assert rest[j - 1] == features[j];
        assert LastWithFeatureId(rest, j - 1) by {
          assert forall l :: j - 1 < l < |rest| ==> rest[l] == features[l + 1];
        }
      }
    }
  }

  /** An id no kept feature of the response has keeps its recorded properties. */
  lemma PropertiesUntouchedStep(s: SceneState, next: SceneState, r: SceneState, features: seq<Feature>,
                                excluded: set<string>, year: int, number: string -> Year)
    requires |features| > 0 && next == ProcessFeature(s, features[0], excluded, year, number)
    requires forall id :: id in next.idToFeatureProperties && id !in KeptIds(features[1..], excluded) ==>
               id in r.idToFeatureProperties && r.idToFeatureProperties[id] == next.idToFeatureProperties[id]
    ensures forall id :: id in s.idToFeatureProperties && id !in KeptIds(features, excluded) ==>
              id in r.idToFeatureProperties && r.idToFeatureProperties[id] == s.idToFeatureProperties[id]
  {
    ResponseCons(features, excluded);
  }

  /** The first feature of a response, when no later feature has its id, is
      not among the kept ids of the rest. */
  lemma NotKeptLater(features: seq<Feature>, excluded: set<string>)
    requires |features| > 0 && LastWithFeatureId(features, 0)
    ensures features[0].id !in KeptIds(features[1..], excluded)
  {
    var rest := features[1..];
    assert forall l :: 0 <= l < |rest| ==> rest[l] == features[l + 1];
  }

  /** The ground of processFeatures is rebuilt from all holes when some
      walkout was loaded, and untouched otherwise. */
  lemma GroundStep(s: SceneState, next: SceneState, r: SceneState, features: seq<Feature>,
                   excluded: set<string>, year: int, number: string -> Year)
    requires |features| > 0 && next == ProcessFeature(s, features[0], excluded, year, number)
    requires r.holes == next.holes + WalkoutHoles(features[1..], excluded)
    requires r.groundHoles == if |WalkoutHoles(features[1..], excluded)| > 0 then VisibleHoles(r.holes, year, number)
                              else next.groundHoles
    ensures r.groundHoles == if |WalkoutHoles(features, excluded)| > 0 then VisibleHoles(r.holes, year, number)
                             else s.groundHoles
  {
    if |WalkoutHoles(features[1..], excluded)| == 0 {
      assert r.holes == next.holes;
    }
  }

  lemma UnionStep<T>(before: set<T>, next: set<T>, after: set<T>, first: set<T>, rest: set<T>, all: set<T>)
    requires next == before + first && after == next + rest && all == first + rest
    ensures after == before + all
  {
  }

  lemma AppendAssoc<T>(a: seq<T>, b: seq<T>, c: seq<T>)
    ensures (a + b) + c == a + (b + c)
  {
  }

  /** The id sets of a response split into its first feature and the rest. */
  lemma ResponseCons(features: seq<Feature>, excluded: set<string>)
    requires |features| > 0
    ensures var f := features[0];
            MeshIds(features, excluded)
            == (if f.id !in excluded && Classify(f.properties) != Unsupported then {f.properties.id} else {})
               + MeshIds(features[1..], excluded)
    ensures var f := features[0];
            KeptIds(features, excluded)
            == (if f.id !in excluded then {f.id} else {}) + KeptIds(features[1..], excluded)
  {
    assert forall g :: g in features <==> g == features[0] || g in features[1..];
  }

  /** The features that survive the exclusion list, in order. */
  function NotExcluded(features: seq<Feature>, excluded: set<string>): (r: seq<Feature>)
    ensures forall f :: f in r <==> f in features && f.id !in excluded
    ensures |r| <= |features|
    decreases |features|
  {
    if |features| == 0 then []
    else
      var rest := NotExcluded(features[1..], excluded);
      assert forall f :: f in features <==> f == features[0] || f in features[1..];
      if features[0].id in excluded then rest else [features[0]] + rest
  }

  /** Filtering a concatenation filters each part, so order and multiplicity
      are kept. */
  lemma {:induction false} NotExcludedAppend(a: seq<Feature>, b: seq<Feature>, excluded: set<string>)
    ensures NotExcluded(a + b, excluded) == NotExcluded(a, excluded) + NotExcluded(b, excluded)
    decreases |a|
  {
    if |a| == 0 {
      assert a + b == b;
    } else {
      assert (a + b)[0] == a[0];
      assert (a + b)[1..] == a[1..] + b;
      NotExcludedAppend(a[1..], b, excluded);
    }
  }

  /** Exclusion acts as a filter on the response: processing with the list
      is processing the surviving features with none excluded. */
  lemma {:induction false} ExclusionIsFilter(s: SceneState, features: seq<Feature>, excluded: set<string>,
                                             year: int, number: string -> Year)
    ensures ProcessFeatures(s, features, excluded, year, number)
            == ProcessFeatures(s, NotExcluded(features, excluded), {}, year, number)
    decreases |features|
  {
    if |features| > 0 {
      var f := features[0];
      var next := ProcessFeature(s, f, excluded, year, number);
      assert ProcessFeatures(s, features, excluded, year, number)
             == ProcessFeatures(next, features[1..], excluded, year, number);
      ExclusionIsFilter(next, features[1..], excluded, year, number);
      var kept := NotExcluded(features, excluded);
      if f.id in excluded {
        assert kept == NotExcluded(features[1..], excluded);
      } else {
        assert kept == [f] + NotExcluded(features[1..], excluded);
        assert kept[1..] == NotExcluded(features[1..], excluded);
        assert ProcessFeature(s, f, {}, year, number) == next;
        assert ProcessFeatures(s, kept, {}, year, number) == ProcessFeatures(next, kept[1..], {}, year, number);
      }
    }
  }

  // ---------------------------------------------------------------------
  // load3dModels / load3dModel

  /** A 3D model of the model list: its id and years. */
  datatype Model3d = Model3d(id: string, startYear: Year, endYear: Year)

  /** The models whose id is not in `ignored`, in order. */
  function WithoutIds(models: seq<Model3d>, ignored: set<string>): (r: seq<Model3d>)
    ensures forall m :: m in r <==> m in models && m.id !in ignored
    ensures |r| <= |models|
    decreases |models|
  {
    if |models| == 0 then []
    else
      var rest := WithoutIds(models[1..], ignored);
      assert forall m :: m in models <==> m == models[0] || m in models[1..];
      if models[0].id in ignored then rest else [models[0]] + rest
  }

  /** Filtering a concatenation filters each part, so order and multiplicity
      are kept. */
  lemma {:induction false} WithoutIdsAppend(a: seq<Model3d>, b: seq<Model3d>, ignored: set<string>)
    ensures WithoutIds(a + b, ignored) == WithoutIds(a, ignored) + WithoutIds(b, ignored)
    decreases |a|
  {
    if |a| == 0 {
      assert a + b == b;
    } else {
      assert (a + b)[0] == a[0];
      assert (a + b)[1..] == a[1..] + b;
      WithoutIdsAppend(a[1..], b, ignored);
    }
  }

  /** The list load3dModels loads: the external models, then the models whose
      id no external model has. */
  function AllModels(external: seq<Model3d>, models: seq<Model3d>): (r: seq<Model3d>)
    ensures |external| <= |r| && r[..|external|] == external
    ensures forall m :: m in r[|external|..] <==> m in models && m.id !in (set e | e in external :: e.id)
    ensures r[|external|..] == WithoutIds(models, set e | e in external :: e.id)
  {
    var r := external + WithoutIds(models, set e | e in external :: e.id);
    assert r[|external|..] == WithoutIds(models, set e | e in external :: e.id);
    r
  }

  /** The shared loading context: the number of models not yet finished and
      whether onComplete is still set. */
  datatype LoadingContext = LoadingContext(numModels: int, hasOnComplete: bool)

  /** modelFinished, reached from both the success and the error callback:
      count one model down; at zero call onComplete, if set, and clear it.
      The boolean says whether onComplete was called. */
  function ModelFinished(c: LoadingContext): (r: (LoadingContext, bool))
    ensures r.0.numModels == c.numModels - 1
    ensures r.1 <==> c.hasOnComplete && c.numModels == 1
    ensures r.0.hasOnComplete <==> c.hasOnComplete && c.numModels != 1
  {
    var n := c.numModels - 1;
    if n == 0 then (LoadingContext(n, false), c.hasOnComplete)
    else (LoadingContext(n, c.hasOnComplete), false)
  }

  /** k successive finishes, with whether each called onComplete. */
  function Finishes(c: LoadingContext, k: nat): (r: (LoadingContext, seq<bool>))
    ensures |r.1| == k
    decreases k
  {
    if k == 0 then (c, [])
    else
      var first := ModelFinished(c);
      var rest := Finishes(first.0, k - 1);
      (rest.0, [first.1] + rest.1)
  }

  /** onComplete is called at the finish that brings the count to zero and at
      no other: exactly once if that many finishes happen, never otherwise. */
  lemma {:induction false} OnCompleteOnlyAtZero(c: LoadingContext, k: nat)
    ensures forall j :: 0 <= j < k ==> (Finishes(c, k).1[j] <==> c.hasOnComplete && j == c.numModels - 1)
    decreases k
  {
    if k > 0 {
      var first := ModelFinished(c);
      OnCompleteOnlyAtZero(first.0, k - 1);
      forall j | 1 <= j < k
        ensures Finishes(c, k).1[j] <==> c.hasOnComplete && j == c.numModels - 1
      {
        assert Finishes(c, k).1[j] == Finishes(first.0, k - 1).1[j - 1];
      }
    }
  }

  /** The success callback of load3dModel once the OBJ file is parsed: the
      new object, lifted to the model's altitude, is made visible exactly when
      the year lies in the model's window, is stored under the model's id
      (replacing any mesh already there), and the model finishes. */
  function ModelLoaded(s: SceneState, m: Model3d, altitudeInMeters: real, year: int, c: LoadingContext)
    : (r: (SceneState, LoadingContext, bool))
    ensures r.0.idToMesh.Keys == s.idToMesh.Keys + {m.id}
    ensures forall k :: k in s.idToMesh && k != m.id ==> r.0.idToMesh[k] == s.idToMesh[k]
    ensures var mesh := r.0.idToMesh[m.id];
            && mesh.name == m.id
            && mesh.positionY == altitudeInMeters
            && (mesh.visible <==> InWindow(m.startYear, m.endYear, year))
    ensures r.0.(idToMesh := s.idToMesh) == s
    ensures (r.1, r.2) == ModelFinished(c)
  {
    var loadedMesh := SetVisibility(m.startYear, m.endYear, year, Mesh(m.id, 0.0, altitudeInMeters, true));
    var finished := ModelFinished(c);
    (s.(idToMesh := s.idToMesh[m.id := loadedMesh]), finished.0, finished.1)
  }

  /** Models load before features, so a feature whose id a loaded model has is
      not drawn: loadFeature keeps the model's mesh. */
  lemma ModelMeshBlocksFeature(s: SceneState, m: Model3d, altitudeInMeters: real, year: int, c: LoadingContext,
                               f: Feature, numberOfLevels: real, extrudeDepth: Option<real>,
                               number: string -> Year)
    requires f.properties.id == m.id
    ensures var loaded := ModelLoaded(s, m, altitudeInMeters, year, c).0;
            LoadFeature(loaded, f, numberOfLevels, extrudeDepth, year, number).idToMesh == loaded.idToMesh
  {
  }

  /** load3dModels: idToModel gets every loaded model under its id and the
      context counts them; with no model there is no load3dModel call and no
      finish, so onComplete is never called. */
  function LoadModels(s: SceneState, external: seq<Model3d>, models: seq<Model3d>, hasOnComplete: bool)
    : (r: (SceneState, LoadingContext))
    ensures r.1 == LoadingContext(|AllModels(external, models)|, hasOnComplete)
    ensures r.0.idToModel.Keys == s.idToModel.Keys + (set m | m in AllModels(external, models) :: m.id)
    ensures r.0.(idToModel := s.idToModel) == s
  {
    var all := AllModels(external, models);
    (s.(idToModel := RecordModels(s.idToModel, all)), LoadingContext(|all|, hasOnComplete))
  }

  /** idToModel[id] = model for each model in order; a later model with the
      same id replaces an earlier one. */
  function RecordModels(table: map<string, ModelYears>, models: seq<Model3d>): (r: map<string, ModelYears>)
    ensures r.Keys == table.Keys + (set m | m in models :: m.id)
    ensures forall j :: 0 <= j < |models| && LastWithId(models, j) ==>
              r[models[j].id] == ModelYears(models[j].startYear, models[j].endYear)
    ensures forall id :: id in table && (forall m :: m in models ==> m.id != id) ==> r[id] == table[id]
    decreases |models|
  {
    if |models| == 0 then table
    else
      var init := models[..|models| - 1];
      var last := models[|models| - 1];
      var r := RecordModels(table, init)[last.id := ModelYears(last.startYear, last.endYear)];
      assert forall m :: m in models <==> m == last || m in init;
      LastWithIdOfPrefix(models);
      r
  }

  /** No later model in the list has the id of models[j]. */
  predicate LastWithId(models: seq<Model3d>, j: int)
    requires 0 <= j < |models|
  {
    forall l :: j < l < |models| ==> models[l].id != models[j].id
  }

  /** A model other than the final one that is last with its id in the list is
      last with its id in the list without the final model, and its id differs
      from the final model's. */
  lemma LastWithIdOfPrefix(models: seq<Model3d>)
    requires |models| > 0
    ensures forall j :: 0 <= j < |models| - 1 && LastWithId(models, j) ==>
              LastWithId(models[..|models| - 1], j) && models[j].id != models[|models| - 1].id
  {
  }

  /** When every one of N >= 1 loaded models finishes, onComplete is called
      once, at the last finish. */
  lemma AllFinishedCallsOnCompleteOnce(s: SceneState, external: seq<Model3d>, models: seq<Model3d>)
    requires |AllModels(external, models)| >= 1
    ensures var n := |AllModels(external, models)|;
            var calls := Finishes(LoadModels(s, external, models, true).1, n).1;
            calls[n - 1] && forall j :: 0 <= j < n - 1 ==> !calls[j]
  {
    var n := |AllModels(external, models)|;
    OnCompleteOnlyAtZero(LoadingContext(n, true), n);
  }

  /** As written, an empty model list never calls onComplete: no model is
      loaded, so no finish happens, and even a spurious finish would not
      call it because the count never reaches zero from zero. The features,
      fetched only inside onComplete, are then never fetched. */
  lemma {:induction false} NoModelsNeverCompletes(s: SceneState, k: nat)
    ensures var c := LoadModels(s, [], [], true).1;
            && c == LoadingContext(0, true)
            && forall j :: 0 <= j < k ==> !Finishes(c, k).1[j]
  {
    var c := LoadModels(s, [], [], true).1;
    assert AllModels([], []) == [];
    OnCompleteOnlyAtZero(c, k);
  }

  /** load3dModels with the empty list handled: onComplete is called at once
      when there is no model to wait for. The boolean says whether it was. */
  function LoadModelsEager(s: SceneState, external: seq<Model3d>, models: seq<Model3d>, hasOnComplete: bool)
    : (r: (SceneState, LoadingContext, bool))
    ensures r.2 <==> hasOnComplete && |AllModels(external, models)| == 0
    ensures r.1.numModels == |AllModels(external, models)|
    ensures r.1.hasOnComplete <==> hasOnComplete && |AllModels(external, models)| > 0
    ensures r.0 == LoadModels(s, external, models, hasOnComplete).0
  {
    var loaded := LoadModels(s, external, models, hasOnComplete);
    if loaded.1.numModels == 0 then (loaded.0, LoadingContext(0, false), hasOnComplete)
    else (loaded.0, loaded.1, false)
  }

  /** With the empty list handled, onComplete is called exactly once for any
      model list: at once when it is empty, else at the last of its finishes. */
  lemma OnCompleteCalledOnceForAnyList(s: SceneState, external: seq<Model3d>, models: seq<Model3d>)
    ensures var n := |AllModels(external, models)|;
            var r := LoadModelsEager(s, external, models, true);
            var calls := Finishes(r.1, n).1;
            && (r.2 <==> n == 0)
            && forall j :: 0 <= j < n ==> (calls[j] <==> j == n - 1)
  {
    var n := |AllModels(external, models)|;
    OnCompleteOnlyAtZero(LoadModelsEager(s, external, models, true).1, n);
  }
}

=== FILE: render_view.dfy ===
/** The feature-loading rules of the RenderView class (render_view.js):
    processFeatures without exclusion list or walkout branch, the
    processedFeatures flag, and loadFeature with the height property. */
module RenderView {
  import opened Wrappers
  import opened Features
  import opened Visibility
  import opened Scene
  import opened Extrusion
  import MainView

  /** The state of one RenderView. */
  datatype View = View(scene: SceneState, processedFeatures: bool)

  /** A view after construction: no meshes, no holes, nothing processed. */
  function NewView(): (v: View)
    ensures !v.processedFeatures
    ensures v.scene.holes == [] && v.scene.groundHoles == [] && v.scene.idToMesh == map[]
  {
    View(SceneState(map[], map[], map[], [], []), false)
  }

  /** The dispatch of processFeatures: building, else sidewalk, else
      unsupported. A basement walkout is unsupported here. */
  function Classify(p: Properties): (k: Kind)
    ensures k != BasementWalkout
    ensures k == Building <==> TruthyText(p.building)
    ensures k == Sidewalk <==> !TruthyText(p.building) && TruthyText(p.sidewalk)
  {
    if TruthyText(p.building) then Building
    else if TruthyText(p.sidewalk) then Sidewalk
    else Unsupported
  }

  /** The two dispatches agree except that walkouts are unsupported here. */
  lemma ClassifyMatchesMainView(p: Properties)
    ensures Classify(p) == (if MainView.Classify(p) == BasementWalkout then Unsupported else MainView.Classify(p))
  {
  }

  /** loadFeature: depth from a truthy extrudeDepth option, else a truthy
      height, else the level count, else the minimum; the mesh is added
      first-wins. */
  function LoadFeature(s: SceneState, f: Feature, numberOfLevels: real, extrudeDepth: Option<real>,
                       year: int, number: string -> Year, parseFloat: string -> real): (r: SceneState)
    ensures r.idToMesh.Keys == s.idToMesh.Keys + {f.properties.id}
    ensures forall k :: k in s.idToMesh ==> r.idToMesh[k] == s.idToMesh[k]
    ensures r.(idToMesh := s.idToMesh) == s
    ensures f.properties.id !in s.idToMesh ==>
              var d := r.idToMesh[f.properties.id].depth;
              var h := f.properties.height;
              && (TruthyNumber(extrudeDepth) ==> d == extrudeDepth.value)
              && (!TruthyNumber(extrudeDepth) && TruthyText(h) ==> d == -parseFloat(h.value))
              && (!TruthyNumber(extrudeDepth) && !TruthyText(h) && numberOfLevels > 0.0 ==>
                    d == -numberOfLevels * AVERAGE_STOREY_HEIGHT_METERS)
              && (!TruthyNumber(extrudeDepth) && !TruthyText(h) && numberOfLevels <= 0.0 ==>
                    d == -MINIMUM_EXTRUSION_METERS)
    ensures f.properties.id !in s.idToMesh ==>
              && r.idToMesh[f.properties.id].name == f.properties.id
              && r.idToMesh[f.properties.id].positionY == 0.0
              && (r.idToMesh[f.properties.id].visible <==> DatesAdmit(f.properties, year, number))
  {
    var depth := Depth(extrudeDepth, ParsedHeight(f.properties, parseFloat), numberOfLevels,
                       AVERAGE_STOREY_HEIGHT_METERS, MINIMUM_EXTRUSION_METERS);
    AddMeshFirstWins(s, f.properties, Mesh(f.properties.id, depth, 0.0, true), year, number)
  }

  /** The mesh a RenderView loads a feature of a supported kind as: named
      after properties.id, visible by the feature's dates and at ground
      level; a building is extruded by its truthy height, else by its level
      count, else by the minimum; a sidewalk by the fixed sidewalk depth. */
  predicate LoadedAs(m: Mesh, f: Feature, year: int, number: string -> Year, parseFloat: string -> real)
  {
    var p := f.properties;
    var levels := NumberOfLevels(p);
    && m.name == p.id
    && (m.visible <==> DatesAdmit(p, year, number))
    && m.positionY == 0.0
    && (Classify(p) == Building ==>
          && (TruthyText(p.height) ==> m.depth == -parseFloat(p.height.value))
          && (!TruthyText(p.height) && levels > 0.0 ==> m.depth == -levels * AVERAGE_STOREY_HEIGHT_METERS)
          && (!TruthyText(p.height) && levels <= 0.0 ==> m.depth == -MINIMUM_EXTRUSION_METERS))
    && (Classify(p) == Sidewalk ==> m.depth == SIDEWALK_EXTRUDE_DEPTH)
  }

  /** features[j] is drawn, and no earlier drawn feature has its properties.id. */
  predicate FirstToLoad(features: seq<Feature>, j: int)
    requires 0 <= j < |features|
  {
    && Classify(features[j].properties) != Unsupported
    && forall l :: 0 <= l < j && Classify(features[l].properties) != Unsupported ==>
         features[l].properties.id != features[j].properties.id
  }

  /** The properties.ids of the drawn features of a response. */
  function DrawnIds(features: seq<Feature>): set<string>
  {
    set f | f in features && Classify(f.properties) != Unsupported :: f.properties.id
  }

  /** The ids of the features of a response. */
  function FeatureIds(features: seq<Feature>): set<string>
  {
    set f | f in features :: f.id
  }

  /** One feature of the response: its properties are recorded under its id
      whatever its kind, then it is dispatched. */
  function ProcessFeature(s: SceneState, f: Feature, year: int, number: string -> Year,
                          parseFloat: string -> real): (r: SceneState)
    ensures r.idToFeatureProperties == s.idToFeatureProperties[f.id := f.properties]
    ensures r.idToFeatureProperties.Keys == s.idToFeatureProperties.Keys + {f.id}
    ensures r.idToMesh.Keys == s.idToMesh.Keys + (if Classify(f.properties) == Unsupported then {} else {f.properties.id})
    ensures forall k :: k in s.idToMesh ==> r.idToMesh[k] == s.idToMesh[k]
    ensures Classify(f.properties) != Unsupported && f.properties.id !in s.idToMesh ==>
              LoadedAs(r.idToMesh[f.properties.id], f, year, number, parseFloat)
    ensures r.holes == s.holes && r.groundHoles == s.groundHoles && r.idToModel == s.idToModel
  {
    var recorded := s.(idToFeatureProperties := s.idToFeatureProperties[f.id := f.properties]);
    var levels := NumberOfLevels(f.properties);
    match Classify(f.properties)
    case Building => LoadFeature(recorded, f, levels, None, year, number, parseFloat)
    case Sidewalk => LoadFeature(recorded, f, levels, Some(SIDEWALK_EXTRUDE_DEPTH), year, number, parseFloat)
    case _ => recorded
  }

  /** Every feature of the response in order. A mesh already stored is never
      replaced, so a new mesh comes from the first drawn feature with its
      properties.id, while the properties recorded under an id are those of
      the last feature with that id. */
  function ProcessAll(s: SceneState, features: seq<Feature>, year: int, number: string -> Year,
                      parseFloat: string -> real): (r: SceneState)
    ensures forall k :: k in s.idToMesh ==> k in r.idToMesh && r.idToMesh[k] == s.idToMesh[k]
    ensures r.idToMesh.Keys
            == s.idToMesh.Keys + DrawnIds(features)
    ensures r.idToFeatureProperties.Keys == s.idToFeatureProperties.Keys + FeatureIds(features)
    ensures forall j :: 0 <= j < |features| && FirstToLoad(features, j) && features[j].properties.id !in s.idToMesh ==>
              features[j].properties.id in r.idToMesh
              && LoadedAs(r.idToMesh[features[j].properties.id], features[j], year, number, parseFloat)
    ensures forall j :: 0 <= j < |features| && LastWithFeatureId(features, j) ==>
              features[j].id in r.idToFeatureProperties
              && r.idToFeatureProperties[features[j].id] == features[j].properties
    ensures forall id :: id in s.idToFeatureProperties && id !in FeatureIds(features) ==>
              id in r.idToFeatureProperties && r.idToFeatureProperties[id] == s.idToFeatureProperties[id]
    ensures r.holes == s.holes && r.groundHoles == s.groundHoles && r.idToModel == s.idToModel
    decreases |features|
  {
    if |features| == 0 then s
    else
      var next := ProcessFeature(s, features[0], year, number, parseFloat);
      var r := ProcessAll(next, features[1..], year, number, parseFloat);
      var f := features[0];
      ResponseCons(features);
      MainView.UnionStep(s.idToMesh.Keys, next.idToMesh.Keys, r.idToMesh.Keys,
                         if Classify(f.properties) != Unsupported then {f.properties.id} else {},
                         DrawnIds(features[1..]), DrawnIds(features));
      MainView.UnionStep(s.idToFeatureProperties.Keys, next.idToFeatureProperties.Keys,
                         r.idToFeatureProperties.Keys, {f.id}, FeatureIds(features[1..]), FeatureIds(features));
      MeshContentsStep(s, next, r, features, year, number, parseFloat);
      PropertiesStep(s, next, r, features, year, number, parseFloat);
      PropertiesUntouchedStep(s, next, r, features, year, number, parseFloat);
      r
  }

  /** The id sets of a response split into its first feature and the rest. */
  lemma ResponseCons(features: seq<Feature>)
    requires |features| > 0
    ensures var f := features[0];
            DrawnIds(features)
            == (if Classify(f.properties) != Unsupported then {f.properties.id} else {}) + DrawnIds(features[1..])
    ensures FeatureIds(features) == {features[0].id} + FeatureIds(features[1..])
  {
    assert forall g :: g in features <==> g == features[0] || g in features[1..];
  }

  /** The mesh contents of ProcessAll, from those of the rest of the response
      and the first feature's step. */
  lemma MeshContentsStep(s: SceneState, next: SceneState, r: SceneState, features: seq<Feature>,
                         year: int, number: string -> Year, parseFloat: string -> real)
    requires |features| > 0 && next == ProcessFeature(s, features[0], year, number, parseFloat)
    requires forall k :: k in next.idToMesh ==> k in r.idToMesh && r.idToMesh[k] == next.idToMesh[k]
    requires forall j :: 0 <= j < |features[1..]| && FirstToLoad(features[1..], j)
                         && features[1..][j].properties.id !in next.idToMesh ==>
               features[1..][j].properties.id in r.idToMesh
               && LoadedAs(r.idToMesh[features[1..][j].properties.id], features[1..][j], year, number, parseFloat)
    ensures forall j :: 0 <= j < |features| && FirstToLoad(features, j) && features[j].properties.id !in s.idToMesh ==>
              features[j].properties.id in r.idToMesh
              && LoadedAs(r.idToMesh[features[j].properties.id], features[j], year, number, parseFloat)
  {
    var rest := features[1..];
    forall j | 0 <= j < |features| && FirstToLoad(features, j) && features[j].properties.id !in s.idToMesh
      ensures features[j].properties.id in r.idToMesh
              && LoadedAs(r.idToMesh[features[j].properties.id], features[j], year, number, parseFloat)
    {
      if j > 0 {
        assert rest[j - 1] == features[j];
        forall l | 0 <= l < j - 1 && Classify(rest[l].properties) != Unsupported
          ensures rest[l].properties.id != rest[j - 1].properties.id
        {
          assert rest[l] == features[l + 1];
        }
        assert FirstToLoad(rest, j - 1);
      }
    }
  }

  /** The recorded properties of ProcessAll, from those of the rest of the
      response and the first feature's step: the last feature with an id wins
      it. */
  lemma PropertiesStep(s: SceneState, next: SceneState, r: SceneState, features: seq<Feature>,
                       year: int, number: string -> Year, parseFloat: string -> real)
    requires |features| > 0 && next == ProcessFeature(s, features[0], year, number, parseFloat)
    requires forall j :: 0 <= j < |features[1..]| && LastWithFeatureId(features[1..], j) ==>
               features[1..][j].id in r.idToFeatureProperties
               && r.idToFeatureProperties[features[1..][j].id] == features[1..][j].properties
    requires forall id :: id in next.idToFeatureProperties && id !in FeatureIds(features[1..]) ==>
               id in r.idToFeatureProperties && r.idToFeatureProperties[id] == next.idToFeatureProperties[id]
    ensures forall j :: 0 <= j < |features| && LastWithFeatureId(features, j) ==>
              features[j].id in r.idToFeatureProperties
              && r.idToFeatureProperties[features[j].id] == features[j].properties
  {
    var rest := features[1..];
    forall j | 0 <= j < |features| && LastWithFeatureId(features, j)
      ensures features[j].id in r.idToFeatureProperties
              && r.idToFeatureProperties[features[j].id] == features[j].properties
    {
      if j == 0 {
        NotLater(features);
      } else {
        assert rest[j - 1] == features[j];
        assert LastWithFeatureId(rest, j - 1) by {
          assert forall l :: j - 1 < l < |rest| ==> rest[l] == features[l + 1];
        }
      }
    }
  }

  /** An id no feature of the response has keeps its recorded properties. */
  lemma PropertiesUntouchedStep(s: SceneState, next: SceneState, r: SceneState, features: seq<Feature>,
                                year: int, number: string -> Year, parseFloat: string -> real)
    requires |features| > 0 && next == ProcessFeature(s, features[0], year, number, parseFloat)
    requires forall id :: id in next.idToFeatureProperties && id !in FeatureIds(features[1..]) ==>
               id in r.idToFeatureProperties && r.idToFeatureProperties[id] == next.idToFeatureProperties[id]
    ensures forall id :: id in s.idToFeatureProperties && id !in FeatureIds(features) ==>
              id in r.idToFeatureProperties && r.idToFeatureProperties[id] == s.idToFeatureProperties[id]
  {
    ResponseCons(features);
  }

  /** The first feature of a response, when no later feature has its id, is
      not among the ids of the rest. */
  lemma NotLater(features: seq<Feature>)
    requires |features| > 0 && LastWithFeatureId(features, 0)
    ensures features[0].id !in FeatureIds(features[1..])
  {
    var rest := features[1..];
    assert forall l :: 0 <= l < |rest| ==> rest[l] == features[l + 1];
  }

  /** processFeatures: every feature is processed, none excluded, and the
      view is marked processed, even for an empty response. */
  function ProcessFeatures(v: View, features: seq<Feature>, year: int, number: string -> Year,
                           parseFloat: string -> real): (r: View)
    ensures r.processedFeatures
    ensures forall k :: k in v.scene.idToMesh ==> k in r.scene.idToMesh && r.scene.idToMesh[k] == v.scene.idToMesh[k]
    ensures r.scene.idToMesh.Keys
            == v.scene.idToMesh.Keys
               + DrawnIds(features)
    ensures r.scene.idToFeatureProperties.Keys == v.scene.idToFeatureProperties.Keys + FeatureIds(features)
    ensures forall j :: 0 <= j < |features| && FirstToLoad(features, j)
                        && features[j].properties.id !in v.scene.idToMesh ==>
              features[j].properties.id in r.scene.idToMesh
              && LoadedAs(r.scene.idToMesh[features[j].properties.id], features[j], year, number, parseFloat)
    ensures forall j :: 0 <= j < |features| && LastWithFeatureId(features, j) ==>
              features[j].id in r.scene.idToFeatureProperties
              && r.scene.idToFeatureProperties[features[j].id] == features[j].properties
    ensures forall id :: id in v.scene.idToFeatureProperties && id !in FeatureIds(features) ==>
              id in r.scene.idToFeatureProperties
              && r.scene.idToFeatureProperties[id] == v.scene.idToFeatureProperties[id]
    ensures r.scene.holes == v.scene.holes && r.scene.groundHoles == v.scene.groundHoles
            && r.scene.idToModel == v.scene.idToModel
  {
    View(ProcessAll(v.scene, features, year, number, parseFloat), true)
  }

  /** Without walkouts and heights, a RenderView loads a response as main.js
      does with an empty exclusion list. */
  lemma {:induction false} AgreesWithMainView(s: SceneState, features: seq<Feature>, year: int,
                                              number: string -> Year, parseFloat: string -> real)
    requires forall f :: f in features ==>
               !TruthyText(f.properties.height) && MainView.Classify(f.properties) != BasementWalkout
    ensures ProcessAll(s, features, year, number, parseFloat)
            == MainView.ProcessFeatures(s, features, {}, year, number)
    decreases |features|
  {
    if |features| > 0 {
      var f := features[0];
      assert f in features;
      assert ProcessFeature(s, f, year, number, parseFloat) == MainView.ProcessFeature(s, f, {}, year, number);
      assert forall g :: g in features[1..] ==> g in features;
      AgreesWithMainView(ProcessFeature(s, f, year, number, parseFloat), features[1..], year, number, parseFloat);
    }
  }
}

=== FILE: scene.dfy ===
/** The scene bookkeeping main.js and render_view.js share: the id-keyed
    tables, the ground holes and the operations on them that are written the
    same way in both files. */
module Scene {
  import opened Wrappers
  import opened Features
  import opened Visibility

  /** One storey is taken as 4.3 meters (14 feet). */
  const AVERAGE_STOREY_HEIGHT_METERS: real := 4.3
  /** The depth loadFeature falls back to. */
  const MINIMUM_EXTRUSION_METERS: real := 0.01
  /** The extrudeDepth option processFeatures gives sidewalks, about six inches. */
  const SIDEWALK_EXTRUDE_DEPTH: real := -0.15

  /** A hole's geometry: the walkout ring it was cut from. */
  type Ring = seq<Point>

  /** The years of an idToModel entry. */
  datatype ModelYears = ModelYears(startYear: Year, endYear: Year)

  datatype SceneState = SceneState(idToMesh: map<string, Mesh>,
                                   idToModel: map<string, ModelYears>,
                                   idToFeatureProperties: map<string, Properties>,
                                   holes: seq<Hole<Ring>>,
                                   groundHoles: seq<Ring>)

  /** The year lies in the window of the feature's start and end dates. */
  predicate DatesAdmit(p: Properties, year: int, number: string -> Year)
  {
    InWindow(ExtractYearFromDate(p.startDate, number), ExtractYearFromDate(p.endDate, number), year)
  }

  /** The tail of loadFeature and loadBasementWalkout: the new mesh is named
      after properties.id, stored and given its visibility only when that id
      has no mesh yet. */
  function AddMeshFirstWins(s: SceneState, p: Properties, mesh: Mesh, year: int,
                            number: string -> Year): (r: SceneState)
    ensures r.idToMesh.Keys == s.idToMesh.Keys + {p.id}
    ensures forall k :: k in s.idToMesh ==> r.idToMesh[k] == s.idToMesh[k]
    ensures p.id !in s.idToMesh ==>
              && r.idToMesh[p.id].name == p.id
              && r.idToMesh[p.id].depth == mesh.depth
              && r.idToMesh[p.id].positionY == mesh.positionY
              && (r.idToMesh[p.id].visible <==> InWindow(ExtractYearFromDate(p.startDate, number),
                                                         ExtractYearFromDate(p.endDate, number), year))
    ensures r.(idToMesh := s.idToMesh) == s
  {
    if p.id in s.idToMesh then s
    else
      var named := SetVisibility(ExtractYearFromDate(p.startDate, number),
                                 ExtractYearFromDate(p.endDate, number), year, mesh.(name := p.id));
      s.(idToMesh := s.idToMesh[p.id := named])
  }

  /** updateGround: the ground is rebuilt with the holes visible this year. */
  function UpdateGround(s: SceneState, year: int, number: string -> Year): SceneState
  {
    s.(groundHoles := VisibleHoles(s.holes, year, number))
  }

  /** setSceneYear reads, for a mesh id, the model's years when idToModel has
      the id and otherwise the dates of its feature properties; with neither
      the property access throws. */
  predicate YearsKnown(s: SceneState, k: string)
  {
    k in s.idToModel || k in s.idToFeatureProperties
  }

  function StartYearOf(s: SceneState, k: string, number: string -> Year): Year
    requires YearsKnown(s, k)
  {
    if k in s.idToModel then s.idToModel[k].startYear
    else ExtractYearFromDate(s.idToFeatureProperties[k].startDate, number)
  }

  function EndYearOf(s: SceneState, k: string, number: string -> Year): Year
    requires YearsKnown(s, k)
  {
    if k in s.idToModel then s.idToModel[k].endYear
    else ExtractYearFromDate(s.idToFeatureProperties[k].endDate, number)
  }

  /** setSceneYear: every mesh is made visible exactly when the year lies in
      its window, and the ground is rebuilt. None is the TypeError raised when
      some mesh id has neither a model nor feature properties. */
  function SetSceneYear(s: SceneState, year: int, number: string -> Year): (r: Option<SceneState>)
    ensures r.Some? <==> forall k :: k in s.idToMesh ==> YearsKnown(s, k)
    ensures r.Some? ==> r.value.idToMesh.Keys == s.idToMesh.Keys
    ensures r.Some? ==> forall k :: k in s.idToMesh ==>
              && r.value.idToMesh[k].name == s.idToMesh[k].name
              && r.value.idToMesh[k].depth == s.idToMesh[k].depth
              && r.value.idToMesh[k].positionY == s.idToMesh[k].positionY
              && (r.value.idToMesh[k].visible <==>
                    if k in s.idToModel then InWindow(s.idToModel[k].startYear, s.idToModel[k].endYear, year)
                    else InWindow(ExtractYearFromDate(s.idToFeatureProperties[k].startDate, number),
                                  ExtractYearFromDate(s.idToFeatureProperties[k].endDate, number), year))
    ensures r.Some? ==> r.value.groundHoles == VisibleHoles(s.holes, year, number)
    ensures r.Some? ==> r.value.(idToMesh := s.idToMesh, groundHoles := s.groundHoles) == s
  {
    if forall k :: k in s.idToMesh ==> YearsKnown(s, k) then
      var meshes := map k | k in s.idToMesh ::
                      SetVisibility(StartYearOf(s, k, number), EndYearOf(s, k, number), year, s.idToMesh[k]);
      Some(UpdateGround(s.(idToMesh := meshes), year, number))
    else None
  }

  /** Applying the same year twice changes nothing the second time. */
  lemma SetSceneYearIdempotent(s: SceneState, year: int, number: string -> Year)
    requires SetSceneYear(s, year, number).Some?
    ensures SetSceneYear(SetSceneYear(s, year, number).value, year, number)
            == SetSceneYear(s, year, number)
  {
    var t := SetSceneYear(s, year, number).value;
    assert forall k :: k in t.idToMesh ==> YearsKnown(t, k);
    var u := SetSceneYear(t, year, number).value;
    forall k | k in t.idToMesh
      ensures u.idToMesh[k] == t.idToMesh[k]
    {
      SetVisibilityIdempotent(StartYearOf(s, k, number), EndYearOf(s, k, number), year, s.idToMesh[k]);
    }
    assert u.idToMesh == t.idToMesh;
  }
}

=== FILE: tiles.dfy ===
/** Model of the uniform tile grid of tiles.js: the Tile record and the Tiler's
    index arithmetic. Geographic points are integer micro-degrees; the tile size
    is a positive number of micro-degrees. */
module Tiles {

  /** A geographic point in integer micro-degrees (longitude, latitude). */
  datatype LonLat = LonLat(lon: int, lat: int)

  /** A tile index: the multiples of the tile size at the tile's min corner. */
  datatype TileIndex = TileIndex(x: int, y: int)

  /** A point in scene coordinates; the projection producing it is a parameter. */
  datatype ScenePoint = ScenePoint(x: real, z: real)

  /** The geographic rectangle of one tile index, with its projected corners. */
  datatype Tile = Tile(lonLatMin: LonLat, lonLatMax: LonLat,
                       sceneMin: ScenePoint, sceneMax: ScenePoint,
                       tileIndex: TileIndex)

  function Abs(v: int): nat
  {
    if v < 0 then -v else v
  }

  /** v lies in the half-open cell [idx*size, idx*size + size). */
  predicate InCell(v: int, idx: int, size: int)
  {
    idx * size <= v < idx * size + size
  }

  /** p lies in the half-open rectangle [min, max) of tile t. */
  predicate InTile(p: LonLat, t: Tile)
  {
    t.lonLatMin.lon <= p.lon < t.lonLatMax.lon && t.lonLatMin.lat <= p.lat < t.lonLatMax.lat
  }

  /** A cell of size `size` contains only one index: floor division is unique. */
  lemma CellUnique(v: int, i: int, j: int, size: int)
    requires size > 0
    requires InCell(v, i, size) && InCell(v, j, size)
    ensures i == j
  {
    if i < j {
      MulMonotonic(i + 1, j, size);
    } else if j < i {
      MulMonotonic(j + 1, i, size);
    }
  }

  /** Floor division and remainder are determined by v == q * n + r with 0 <= r < n. */
  lemma FloorDivUnique(v: int, q: int, r: int, n: int)
    requires n > 0 && 0 <= r < n && v == q * n + r
    ensures v / n == q && v % n == r
  {
    CellUnique(v, q, v / n, n);
  }

  /** Index of the tile containing p: floor of each coordinate divided by the tile
      size (Dafny's division is floor division for a positive divisor). */
  function TileIndexAt(size: int, p: LonLat): (i: TileIndex)
    requires size > 0
    ensures InCell(p.lon, i.x, size) && InCell(p.lat, i.y, size)
  {
    TileIndex(p.lon / size, p.lat / size)
  }

  /** The tile at index i. The projection of corners to scene coordinates is
      supplied by the caller. */
  function TileAtIndex(size: int, i: TileIndex, toScene: LonLat -> ScenePoint): (t: Tile)
    requires size > 0
    ensures t.tileIndex == i
    ensures t.lonLatMin == LonLat(i.x * size, i.y * size)
    ensures t.lonLatMax.lon - t.lonLatMin.lon == size && t.lonLatMax.lat - t.lonLatMin.lat == size
    ensures TileIndexAt(size, t.lonLatMin) == i
    ensures t.sceneMin == toScene(t.lonLatMin) && t.sceneMax == toScene(t.lonLatMax)
  {
    var lonMin := i.x * size;
    var latMin := i.y * size;
    var minCorner := LonLat(lonMin, latMin);
    var maxCorner := LonLat(lonMin + size, latMin + size);
    CellUnique(lonMin, lonMin / size, i.x, size);
    CellUnique(latMin, latMin / size, i.y, size);
    Tile(minCorner, maxCorner, toScene(minCorner), toScene(maxCorner), i)
  }

  /** A point maps to index i exactly when it lies in the half-open tile at i. */
  lemma TileMembership(size: int, i: TileIndex, toScene: LonLat -> ScenePoint, p: LonLat)
    requires size > 0
    ensures TileIndexAt(size, p) == i <==> InTile(p, TileAtIndex(size, i, toScene))
  {
    var t := TileAtIndex(size, i, toScene);
    var j := TileIndexAt(size, p);
    if InTile(p, t) {
      CellUnique(p.lon, j.x, i.x, size);
      CellUnique(p.lat, j.y, i.y, size);
    }
  }

  lemma FloorDivMonotonic(size: int, u: int, v: int)
    requires size > 0 && u <= v
    ensures u / size <= v / size
  {
    var p, q := u / size, v / size;
    if p > q {
      MulMonotonic(q + 1, p, size);
    }
  }

  lemma MulMonotonic(x: int, y: int, s: int)
    requires x <= y && s > 0
    ensures x * s <= y * s
    ensures x * s == (x - 1) * s + s
  {
    assert y * s == x * s + (y - x) * s;
  }

  /** Tile indices are non-decreasing in longitude and in latitude. */
  lemma TileIndexMonotonic(size: int, a: LonLat, b: LonLat)
    requires size > 0
    requires a.lon <= b.lon && a.lat <= b.lat
    ensures TileIndexAt(size, a).x <= TileIndexAt(size, b).x
    ensures TileIndexAt(size, a).y <= TileIndexAt(size, b).y
  {
    FloorDivMonotonic(size, a.lon, b.lon);
    FloorDivMonotonic(size, a.lat, b.lat);
  }

  /** The documented example: tile size 100, lon -72.5435414 and lat 39.4564325
      (whose micro-degree floors are -72543542 and 39456432) lie in tile
      [-725436, 394564]. */
  lemma DocumentedExample()
    ensures TileIndexAt(100, LonLat(-72543542, 39456432)) == TileIndex(-725436, 394564)
  {
  }

  /** Chebyshev distance between two tile indices. */
  function TileIndexDistance(a: TileIndex, b: TileIndex): (d: nat)
    ensures Abs(a.x - b.x) <= d && Abs(a.y - b.y) <= d
    ensures d == Abs(a.x - b.x) || d == Abs(a.y - b.y)
  {
    var dx := Abs(a.x - b.x);
    var dy := Abs(a.y - b.y);
    if dx < dy then dy else dx
  }

  /** The distance is a metric: zero exactly on equal indices, symmetric, and it
      satisfies the triangle inequality. */
  lemma DistanceIsMetric(a: TileIndex, b: TileIndex, c: TileIndex)
    ensures TileIndexDistance(a, b) == 0 <==> a == b
    ensures TileIndexDistance(a, b) == TileIndexDistance(b, a)
    ensures TileIndexDistance(a, c) <= TileIndexDistance(a, b) + TileIndexDistance(b, c)
  {
  }

  /** An inclusive box of tile indices; empty when a lower bound exceeds its upper bound. */
  datatype Box = Box(xLo: int, xHi: int, yLo: int, yHi: int)

  predicate InBox(e: TileIndex, b: Box)
  {
    b.xLo <= e.x <= b.xHi && b.yLo <= e.y <= b.yHi
  }

  /** a and b differ by one step along exactly one axis. */
  predicate UnitStep(a: TileIndex, b: TileIndex)
  {
    (Abs(a.x - b.x) == 1 && a.y == b.y) || (a.x == b.x && Abs(a.y - b.y) == 1)
  }

  predicate Distinct(s: seq<TileIndex>)
  {
    forall p, q :: 0 <= p < q < |s| ==> s[p] != s[q]
  }

  /** The shape of a walk: it starts at c, ends at cur, never repeats an index,
      moves by unit steps, and its second index (if any) is right of c. */
  predicate Walk(out: seq<TileIndex>, c: TileIndex, cur: TileIndex)
  {
    && |out| > 0
    && out[0] == c && out[|out| - 1] == cur
    && (|out| >= 2 ==> out[1] == TileIndex(c.x + 1, c.y))
    && Distinct(out)
    && forall n :: 0 < n < |out| ==> UnitStep(out[n - 1], out[n])
  }

  /** The indices of `out` are exactly those of the two boxes. */
  ghost predicate Covers(out: seq<TileIndex>, R: Box, S: Box)
  {
    forall e :: e in out <==> InBox(e, R) || InBox(e, S)
  }

  /** One step of the spiral to an index outside both boxes keeps the walk's
      shape and grows the segment box by that index. */
  lemma StepWalk(out: seq<TileIndex>, c: TileIndex, cur: TileIndex, next: TileIndex,
                 R: Box, S: Box, S': Box)
    requires Walk(out, c, cur) && Covers(out, R, S)
    requires UnitStep(cur, next) && !InBox(next, R) && !InBox(next, S)
    requires |out| == 1 ==> next == TileIndex(c.x + 1, c.y)
    requires forall e :: InBox(e, S') <==> InBox(e, S) || e == next
    ensures Walk(out + [next], c, next) && Covers(out + [next], R, S')
  {
    var t := out + [next];
    forall p, q | 0 <= p < q < |t|
      ensures t[p] != t[q]
    {
      assert t[p] == out[p];
      if q < |out| {
        assert t[q] == out[q];
      }
    }
    forall n | 0 < n < |t|
      ensures UnitStep(t[n - 1], t[n])
    {
      if n < |out| {
        assert t[n - 1] == out[n - 1] && t[n] == out[n];
      }
    }
    forall e
      ensures e in t <==> InBox(e, R) || InBox(e, S')
    {
      assert e in t <==> e in out || e == next;
    }
  }

  /** Re-cutting the two boxes without changing their union preserves Covers. */
  lemma Recut(out: seq<TileIndex>, R: Box, S: Box, R': Box, S': Box)
    requires Covers(out, R, S)
    requires forall e :: InBox(e, R) || InBox(e, S) <==> InBox(e, R') || InBox(e, S')
    ensures Covers(out, R', S')
  {
  }

  /** The x-leg of one turn of the spiral: `steps` unit moves by `offset` along x. */
  method WalkX(out: seq<TileIndex>, c: TileIndex, cur: TileIndex, offset: int, steps: nat,
               ghost R: Box)
    returns (out': seq<TileIndex>, cur': TileIndex, ghost S: Box)
    requires offset == 1 || offset == -1
    requires Walk(out, c, cur) && Covers(out, R, Box(cur.x, cur.x, cur.y, cur.y))
    requires !(R.yLo <= cur.y <= R.yHi)
    requires |out| == 1 ==> offset == 1
    ensures cur' == TileIndex(cur.x + offset * steps, cur.y)
    ensures S == if offset == 1 then Box(cur.x, cur'.x, cur.y, cur.y) else Box(cur'.x, cur.x, cur.y, cur.y)
    ensures |out'| == |out| + steps
    ensures forall n :: 0 <= n < |out| ==> out'[n] == out[n]
    ensures forall n :: |out| <= n < |out'| ==> out'[n] == TileIndex(cur.x + offset * (n - |out| + 1), cur.y)
    ensures Walk(out', c, cur') && Covers(out', R, S)
  {
    out', cur' := out, cur;
    S := Box(cur.x, cur.x, cur.y, cur.y);
    var j := 1;
    while j <= steps
      invariant 1 <= j <= steps + 1
      invariant cur' == TileIndex(cur.x + offset * (j - 1), cur.y)
      invariant S == if offset == 1 then Box(cur.x, cur'.x, cur.y, cur.y) else Box(cur'.x, cur.x, cur.y, cur.y)
      invariant |out'| == |out| + (j - 1)
      invariant forall n :: 0 <= n < |out| ==> out'[n] == out[n]
      invariant forall n :: |out| <= n < |out'| ==> out'[n] == TileIndex(cur.x + offset * (n - |out| + 1), cur.y)
      invariant Walk(out', c, cur') && Covers(out', R, S)
    {
      var next := TileIndex(cur'.x + offset, cur'.y);
      assert next == TileIndex(cur.x + offset * j, cur.y);
      var S' := if offset == 1 then Box(cur.x, next.x, cur.y, cur.y) else Box(next.x, cur.x, cur.y, cur.y);
      StepWalk(out', c, cur', next, R, S, S');
      out', cur', S := out' + [next], next, S';
      j := j + 1;
    }
  }

  /** The y-leg of one turn of the spiral: `steps` unit moves by `offset` along y. */
  method WalkY(out: seq<TileIndex>, c: TileIndex, cur: TileIndex, offset: int, steps: nat,
               ghost R: Box)
    returns (out': seq<TileIndex>, cur': TileIndex, ghost S: Box)
    requires offset == 1 || offset == -1
    requires Walk(out, c, cur) && Covers(out, R, Box(cur.x, cur.x, cur.y, cur.y))
    requires !(R.xLo <= cur.x <= R.xHi)
    requires |out| >= 2
    ensures cur' == TileIndex(cur.x, cur.y + offset * steps)
    ensures S == if offset == 1 then Box(cur.x, cur.x, cur.y, cur'.y) else Box(cur.x, cur.x, cur'.y, cur.y)
    ensures |out'| == |out| + steps
    ensures forall n :: 0 <= n < |out| ==> out'[n] == out[n]
    ensures forall n :: |out| <= n < |out'| ==> out'[n] == TileIndex(cur.x, cur.y + offset * (n - |out| + 1))
    ensures Walk(out', c, cur') && Covers(out', R, S)
  {
    out', cur' := out, cur;
    S := Box(cur.x, cur.x, cur.y, cur.y);
    var j := 1;
    while j <= steps
      invariant 1 <= j <= steps + 1
      invariant cur' == TileIndex(cur.x, cur.y + offset * (j - 1))
      invariant S == if offset == 1 then Box(cur.x, cur.x, cur.y, cur'.y) else Box(cur.x, cur.x, cur'.y, cur.y)
      invariant |out'| == |out| + (j - 1)
      invariant forall n :: 0 <= n < |out| ==> out'[n] == out[n]
      invariant forall n :: |out| <= n < |out'| ==> out'[n] == TileIndex(cur.x, cur.y + offset * (n - |out| + 1))
      invariant Walk(out', c, cur') && Covers(out', R, S)
    {
      var next := TileIndex(cur'.x, cur'.y + offset);
      assert next == TileIndex(cur.x, cur.y + offset * j);
      var S' := if offset == 1 then Box(cur.x, cur.x, cur.y, next.y) else Box(cur.x, cur.x, next.y, cur.y);
      StepWalk(out', c, cur', next, R, S, S');
      out', cur', S := out' + [next], next, S';
      j := j + 1;
    }
  }

  /** Number of indices emitted before turn i of the spiral starts. */
  function Spiralled(i: int): int
  {
    1 + (i - 1) * i
  }

  lemma SpiralledStep(i: int)
    ensures Spiralled(i + 1) == Spiralled(i) + i + i
  {
  }

  lemma SpiralledLast(i: int)
    ensures Spiralled(i) + (i - 1) == i * i
  {
  }

  /** The y-leg of a turn that is not the last, with the bookkeeping of the
      filled rectangle: the row just walked, except its last index, completes R
      along y; the column then walked, except its last index, completes it
      along x. */
  method TurnY(out: seq<TileIndex>, c: TileIndex, cur: TileIndex, offset: int, i: nat, ghost k: int,
               ghost R: Box, ghost S: Box)
    returns (out': seq<TileIndex>, cur': TileIndex, ghost R': Box, ghost k': int)
    requires offset == 1 || offset == -1
    requires offset == 1 ==> && i == 2 * k + 1 && cur == TileIndex(c.x + k + 1, c.y - k)
                             && R == Box(c.x - k, c.x + k, c.y - k + 1, c.y + k)
                             && S == Box(c.x - k, c.x + k + 1, c.y - k, c.y - k)
    requires offset == -1 ==> && i == 2 * k && cur == TileIndex(c.x - k, c.y + k)
                              && R == Box(c.x - k + 1, c.x + k, c.y - k + 1, c.y + k - 1)
                              && S == Box(c.x - k, c.x + k, c.y + k, c.y + k)
    requires |out| >= 2 && Walk(out, c, cur) && Covers(out, R, S)
    ensures offset == 1 ==> && k' == k + 1 && cur' == TileIndex(c.x + k', c.y + k')
                            && R' == Box(c.x - k' + 1, c.x + k', c.y - k' + 1, c.y + k' - 1)
    ensures offset == -1 ==> && k' == k && cur' == TileIndex(c.x - k, c.y - k)
                             && R' == Box(c.x - k, c.x + k, c.y - k + 1, c.y + k)
    ensures |out'| == |out| + i
    ensures forall n :: 0 <= n < |out| ==> out'[n] == out[n]
    ensures forall n :: |out| <= n < |out'| ==> out'[n] == TileIndex(cur.x, cur.y + offset * (n - |out| + 1))
    ensures Walk(out', c, cur') && Covers(out', R', Box(cur'.x, cur'.x, cur'.y, cur'.y))
  {
    ghost var filled;
    ghost var column;
    if offset == 1 {
      filled := Box(c.x - k, c.x + k, c.y - k, c.y + k);
      R' := Box(c.x - k, c.x + k + 1, c.y - k, c.y + k);
      k' := k + 1;
    } else {
      filled := Box(c.x - k + 1, c.x + k, c.y - k + 1, c.y + k);
      R' := Box(c.x - k, c.x + k, c.y - k + 1, c.y + k);
      k' := k;
    }
    Recut(out, R, S, filled, Box(cur.x, cur.x, cur.y, cur.y));
    out', cur', column := WalkY(out, c, cur, offset, i, filled);
    Recut(out', filled, column, R', Box(cur'.x, cur'.x, cur'.y, cur'.y));
  }

  /** Position in the spiral at which ring d (the indices at distance d from
      the center) begins: 0 for the center, (2d-1)^2 for d >= 1, so that the
      rings up to d fill the first (2d+1)^2 positions. */
  function RingStart(d: nat): nat
  {
    if d == 0 then 0 else (2 * d - 1) * (2 * d - 1)
  }

  lemma RingStartClosed(d: nat)
    ensures RingStart(d + 1) == 4 * d * d + 4 * d + 1
    ensures d >= 1 ==> RingStart(d) == 4 * d * d - 4 * d + 1
  {
  }

  /** Ring starts grow strictly with the ring. */
  lemma {:induction false} RingStartMonotonic(a: nat, b: nat)
    requires a < b
    ensures RingStart(a) < RingStart(b)
    decreases b - a
  {
    RingStartClosed(b - 1);
    if b - 1 > a {
      RingStartMonotonic(a, b - 1);
    } else if a >= 1 {
      RingStartClosed(a);
    }
  }

  /** Position n of the spiral holds e only if e lies on the ring that
      occupies position n. */
  predicate InRing(e: TileIndex, c: TileIndex, n: int)
  {
    var d := TileIndexDistance(e, c);
    RingStart(d) <= n < RingStart(d + 1)
  }

  /** Every index of `out` lies on the ring of its position: the spiral
      completes each ring before it starts the next. */
  predicate Ringed(out: seq<TileIndex>, c: TileIndex)
  {
    forall n :: 0 <= n < |out| ==> InRing(out[n], c, n)
  }

  /** Ring d (d >= 1) begins at the index d right of and d - 1 below the
      center, and continues upward: the spiral turns counter-clockwise. */
  predicate RingOpens(out: seq<TileIndex>, c: TileIndex, d: nat)
  {
    && RingStart(d) + 1 < |out|
    && out[RingStart(d)] == TileIndex(c.x + d, c.y - d + 1)
    && out[RingStart(d) + 1] == TileIndex(c.x + d, c.y - d + 2)
  }

  lemma SpiralledClosed(k: nat)
    ensures Spiralled(2 * k + 1) == 4 * k * k + 2 * k + 1
    ensures Spiralled(2 * k) == 4 * k * k - 2 * k + 1
  {
  }

  /** The j-th index of the x-leg of turn 2k+1 lies on ring k, except the last,
      which opens ring k+1. */
  lemma RightStep(c: TileIndex, k: nat, j: int)
    requires 1 <= j <= 2 * k + 1
    ensures InRing(TileIndex(c.x - k + 1 * j, c.y - k), c, 4 * k * k + 2 * k + j)
  {
    RingStartClosed(k);
    RingStartClosed(k + 1);
  }

  /** The j-th index of the x-leg of turn 2k lies on ring k. */
  lemma LeftStep(c: TileIndex, k: nat, j: int)
    requires k >= 1 && 1 <= j <= 2 * k
    ensures InRing(TileIndex(c.x + k + -1 * j, c.y + k), c, 4 * k * k - 2 * k + j)
  {
    RingStartClosed(k);
  }

  /** The j-th index of the y-leg of turn 2k+1 lies on ring k+1. */
  lemma UpStep(c: TileIndex, k: nat, j: int)
    requires 1 <= j <= 2 * k + 1
    ensures InRing(TileIndex(c.x + k + 1, c.y - k + 1 * j), c, 4 * k * k + 4 * k + 1 + j)
  {
    RingStartClosed(k);
    RingStartClosed(k + 1);
    assert (k + 1) * (k + 1) == k * k + 2 * k + 1;
    assert TileIndexDistance(TileIndex(c.x + k + 1, c.y - k + 1 * j), c) == k + 1;
  }

  /** The j-th index of the y-leg of turn 2k lies on ring k. */
  lemma DownStep(c: TileIndex, k: nat, j: int)
    requires k >= 1 && 1 <= j <= 2 * k
    ensures InRing(TileIndex(c.x - k, c.y + k + -1 * j), c, 4 * k * k + j)
  {
    RingStartClosed(k);
  }

  /** The x-leg of turn 2k+1, from (c.x-k, c.y-k) rightward, keeps the spiral
      ringed. */
  lemma RightLegRinged(out: seq<TileIndex>, out': seq<TileIndex>, c: TileIndex, k: nat)
    requires |out| == Spiralled(2 * k + 1) && |out| <= |out'| <= |out| + 2 * k + 1
    requires Ringed(out, c)
    requires forall n :: 0 <= n < |out| ==> out'[n] == out[n]
    requires forall n :: |out| <= n < |out'| ==> out'[n] == TileIndex(c.x - k + 1 * (n - |out| + 1), c.y - k)
    ensures Ringed(out', c)
  {
    SpiralledClosed(k);
    forall n | |out| <= n < |out'|
      ensures InRing(out'[n], c, n)
    {
      RightStep(c, k, n - |out| + 1);
    }
  }

  /** The x-leg of turn 2k, from (c.x+k, c.y+k) leftward, keeps the spiral
      ringed. */
  lemma LeftLegRinged(out: seq<TileIndex>, out': seq<TileIndex>, c: TileIndex, k: nat)
    requires k >= 1 && |out| == Spiralled(2 * k) && |out'| == |out| + 2 * k
    requires Ringed(out, c)
    requires forall n :: 0 <= n < |out| ==> out'[n] == out[n]
    requires forall n :: |out| <= n < |out'| ==> out'[n] == TileIndex(c.x + k + -1 * (n - |out| + 1), c.y + k)
    ensures Ringed(out', c)
  {
    SpiralledClosed(k);
    forall n | |out| <= n < |out'|
      ensures InRing(out'[n], c, n)
    {
      LeftStep(c, k, n - |out| + 1);
    }
  }

  /** The y-leg of turn 2k+1, from (c.x+k+1, c.y-k) upward, keeps the spiral
      ringed, and its first index is the second of ring k+1. */
  lemma UpLegRinged(out: seq<TileIndex>, out': seq<TileIndex>, c: TileIndex, k: nat)
    requires |out| == Spiralled(2 * k + 1) + 2 * k + 1 && |out'| == |out| + 2 * k + 1
    requires Ringed(out, c) && out[|out| - 1] == TileIndex(c.x + k + 1, c.y - k)
    requires forall n :: 0 <= n < |out| ==> out'[n] == out[n]
    requires forall n :: |out| <= n < |out'| ==> out'[n] == TileIndex(c.x + k + 1, c.y - k + 1 * (n - |out| + 1))
    ensures Ringed(out', c) && RingOpens(out', c, k + 1)
  {
    SpiralledClosed(k);
    RingStartClosed(k);
    forall n | |out| <= n < |out'|
      ensures InRing(out'[n], c, n)
    {
      UpStep(c, k, n - |out| + 1);
    }
    assert out'[|out|] == TileIndex(c.x + k + 1, c.y - k + 1);
  }

  /** The y-leg of turn 2k, from (c.x-k, c.y+k) downward, keeps the spiral
      ringed. */
  lemma DownLegRinged(out: seq<TileIndex>, out': seq<TileIndex>, c: TileIndex, k: nat)
    requires k >= 1 && |out| == Spiralled(2 * k) + 2 * k && |out'| == |out| + 2 * k
    requires Ringed(out, c)
    requires forall n :: 0 <= n < |out| ==> out'[n] == out[n]
    requires forall n :: |out| <= n < |out'| ==> out'[n] == TileIndex(c.x - k, c.y + k + -1 * (n - |out| + 1))
    ensures Ringed(out', c)
  {
    SpiralledClosed(k);
    forall n | |out| <= n < |out'|
      ensures InRing(out'[n], c, n)
    {
      DownStep(c, k, n - |out| + 1);
    }
  }

  /** Extending the spiral keeps the rings it has already opened. */
  lemma OpensKept(out: seq<TileIndex>, out': seq<TileIndex>, c: TileIndex, k: nat)
    requires |out| <= |out'| && forall n :: 0 <= n < |out| ==> out'[n] == out[n]
    requires forall d :: 1 <= d <= k ==> RingOpens(out, c, d)
    ensures forall d :: 1 <= d <= k ==> RingOpens(out', c, d)
  {
    forall d | 1 <= d <= k
      ensures RingOpens(out', c, d)
    {
      assert RingOpens(out, c, d);
    }
  }

  /** The rings of a spiral of the given radius come in order: its first
      (2k+1)^2 indices are exactly those within distance k, for every k up to
      the radius. */
  lemma RingsComplete(out: seq<TileIndex>, center: TileIndex, radius: nat, k: nat)
    requires Ringed(out, center) && |out| == RingStart(radius + 1)
    requires forall e :: e in out <==> TileIndexDistance(e, center) <= radius
    requires k <= radius
    ensures RingStart(k + 1) <= |out|
    ensures forall e :: e in out[..RingStart(k + 1)] <==> TileIndexDistance(e, center) <= k
  {
    if k < radius {
      RingStartMonotonic(k + 1, radius + 1);
    }
    var prefix := out[..RingStart(k + 1)];
    forall e | e in prefix
      ensures TileIndexDistance(e, center) <= k
    {
      var d := TileIndexDistance(e, center);
      var n :| 0 <= n < |prefix| && prefix[n] == e;
      assert InRing(out[n], center, n);
      if d > k + 1 {
        RingStartMonotonic(k + 1, d);
      }
    }
    forall e | TileIndexDistance(e, center) <= k
      ensures e in prefix
    {
      var d := TileIndexDistance(e, center);
      var n :| 0 <= n < |out| && out[n] == e;
      assert InRing(out[n], center, n);
      if d < k {
        RingStartMonotonic(d + 1, k + 1);
      }
      assert prefix[n] == e;
    }
  }

  /** WalkX for one turn of the spiral, keeping the ring layout: turn i = 2k+1
      walks right from (c.x-k, c.y-k), turn i = 2k walks left from
      (c.x+k, c.y+k). */
  method RingedWalkX(out: seq<TileIndex>, c: TileIndex, cur: TileIndex, offset: int, steps: nat,
                     ghost i: int, ghost k: int, ghost R: Box)
    returns (out': seq<TileIndex>, cur': TileIndex, ghost S: Box)
    requires offset == 1 ==> && i == 2 * k + 1 && cur == TileIndex(c.x - k, c.y - k)
                             && R == Box(c.x - k, c.x + k, c.y - k + 1, c.y + k)
                             && (steps == i || steps == i - 1)
    requires offset == -1 ==> && i == 2 * k && cur == TileIndex(c.x + k, c.y + k)
                              && R == Box(c.x - k + 1, c.x + k, c.y - k + 1, c.y + k - 1)
                              && steps == i
    requires (offset == 1 || offset == -1) && i >= 1 && |out| == Spiralled(i)
    requires Walk(out, c, cur) && Covers(out, R, Box(cur.x, cur.x, cur.y, cur.y)) && Ringed(out, c)
    requires forall d :: 1 <= d <= k ==> RingOpens(out, c, d)
    ensures cur' == TileIndex(cur.x + offset * steps, cur.y)
    ensures S == if offset == 1 then Box(cur.x, cur'.x, cur.y, cur.y) else Box(cur'.x, cur.x, cur.y, cur.y)
    ensures |out'| == |out| + steps
    ensures Walk(out', c, cur') && Covers(out', R, S) && Ringed(out', c)
    ensures forall d :: 1 <= d <= k ==> RingOpens(out', c, d)
  {
    out', cur', S := WalkX(out, c, cur, offset, steps, R);
    if offset == 1 {
      RightLegRinged(out, out', c, k);
    } else {
      LeftLegRinged(out, out', c, k);
    }
    OpensKept(out, out', c, k);
  }

  /** TurnY keeping the ring layout; the y-leg of turn 2k+1 opens ring k+1. */
  method RingedTurnY(out: seq<TileIndex>, c: TileIndex, cur: TileIndex, offset: int, i: nat, ghost k: int,
                     ghost R: Box, ghost S: Box)
    returns (out': seq<TileIndex>, cur': TileIndex, ghost R': Box, ghost k': int)
    requires offset == 1 || offset == -1
    requires offset == 1 ==> && i == 2 * k + 1 && cur == TileIndex(c.x + k + 1, c.y - k)
                             && R == Box(c.x - k, c.x + k, c.y - k + 1, c.y + k)
                             && S == Box(c.x - k, c.x + k + 1, c.y - k, c.y - k)
    requires offset == -1 ==> && i == 2 * k && cur == TileIndex(c.x - k, c.y + k)
                              && R == Box(c.x - k + 1, c.x + k, c.y - k + 1, c.y + k - 1)
                              && S == Box(c.x - k, c.x + k, c.y + k, c.y + k)
    requires |out| >= 2 && |out| == Spiralled(i) + i
    requires Walk(out, c, cur) && Covers(out, R, S) && Ringed(out, c)
    requires forall d :: 1 <= d <= k ==> RingOpens(out, c, d)
    ensures offset == 1 ==> && k' == k + 1 && cur' == TileIndex(c.x + k', c.y + k')
                            && R' == Box(c.x - k' + 1, c.x + k', c.y - k' + 1, c.y + k' - 1)
    ensures offset == -1 ==> && k' == k && cur' == TileIndex(c.x - k, c.y - k)
                             && R' == Box(c.x - k, c.x + k, c.y - k + 1, c.y + k)
    ensures |out'| == |out| + i
    ensures Walk(out', c, cur') && Covers(out', R', Box(cur'.x, cur'.x, cur'.y, cur'.y)) && Ringed(out', c)
    ensures forall d :: 1 <= d <= k' ==> RingOpens(out', c, d)
  {
    out', cur', R', k' := TurnY(out, c, cur, offset, i, k, R, S);
    if offset == 1 {
      UpLegRinged(out, out', c, k);
    } else {
      DownLegRinged(out, out', c, k);
    }
    OpensKept(out, out', c, k);
  }

  /** The loop of tileIndicesNear: turns 1 .. 2*radius+1 of the spiral, the
      last one without its y-leg. It leaves a walk that covers the square of
      the given radius, ring by ring. */
  method Spiral(c: TileIndex, radius: nat) returns (out: seq<TileIndex>)
    ensures |out| == Spiralled(2 * radius + 1) + 2 * radius
    ensures Walk(out, c, out[|out| - 1])
    ensures Covers(out, Box(c.x - radius, c.x + radius, c.y - radius, c.y + radius),
                        Box(c.x - radius, c.x + radius, c.y - radius, c.y + radius))
    ensures Ringed(out, c)
    ensures forall d :: 1 <= d <= radius ==> RingOpens(out, c, d)
  {
    var cur := c;
    out := [cur];
    var iMax := 2 * radius + 1;
    var offset := 1;
    var i := 1;
    ghost var k := 0;
    ghost var R := Box(c.x, c.x, c.y + 1, c.y);
    while true
      invariant 1 <= i <= iMax
      invariant offset == 1 || offset == -1
      invariant offset == 1 ==> i == 2 * k + 1 && cur == TileIndex(c.x - k, c.y - k)
                                && R == Box(c.x - k, c.x + k, c.y - k + 1, c.y + k)
      invariant offset == -1 ==> i == 2 * k && cur == TileIndex(c.x + k, c.y + k)
                                 && R == Box(c.x - k + 1, c.x + k, c.y - k + 1, c.y + k - 1)
      invariant |out| == Spiralled(i)
      invariant Walk(out, c, cur) && Covers(out, R, Box(cur.x, cur.x, cur.y, cur.y))
      invariant Ringed(out, c)
      invariant forall d :: 1 <= d <= k ==> RingOpens(out, c, d)
      decreases iMax - i
    {
      var jMax := if i == iMax then i - 1 else i;
      ghost var S;
      out, cur, S := RingedWalkX(out, c, cur, offset, jMax, i, k, R);
      if i == iMax {
        ghost var square := Box(c.x - k, c.x + k, c.y - k, c.y + k);
        Recut(out, R, S, square, square);
        break;
      }
      out, cur, R, k := RingedTurnY(out, c, cur, offset, i, k, R, S);
      SpiralledStep(i);
      offset := -offset;
      i := i + 1;
    }
  }

  /** The indices within Chebyshev distance `radius` of `center`, starting at the
      center and spiralling counter-clockwise outward, starting with the index to
      the right of the center: each ring is completed before the next begins,
      and each ring d opens at (center.x + d, center.y - d + 1) and climbs. */
  method TileIndicesNear(center: TileIndex, radius: nat) returns (out: seq<TileIndex>)
    ensures |out| == (2 * radius + 1) * (2 * radius + 1)
    ensures out[0] == center
    ensures radius >= 1 ==> out[1] == TileIndex(center.x + 1, center.y)
    ensures forall e :: e in out <==> TileIndexDistance(e, center) <= radius
    ensures Distinct(out)
    ensures forall n :: 0 < n < |out| ==> UnitStep(out[n - 1], out[n])
    ensures Ringed(out, center)
    ensures forall d :: 1 <= d <= radius ==> RingOpens(out, center, d)
    ensures radius >= 1 ==> out[2] == TileIndex(center.x + 1, center.y + 1)
  {
    out := Spiral(center, radius);
    SpiralledLast(2 * radius + 1);
    if radius >= 1 {
      assert RingOpens(out, center, 1);
    }
  }
}

=== FILE: util.dfy ===
/** Util.stringToBoolean and Util.setOptionFromUrlParams (util.js). */
module Util {
  import opened Wrappers

  /** ASCII lower-casing of one character. For the three accepted spellings
      this agrees with the full Unicode toLowerCase: no non-ASCII character
      lower-cases to one of their letters. */
  function LowerChar(c: char): (d: char)
    ensures 'A' <= c <= 'Z' ==> d as int == c as int + 32
    ensures !('A' <= c <= 'Z') ==> d == c
    ensures !('A' <= d <= 'Z')
  {
    if 'A' <= c <= 'Z' then (c as int + 32) as char else c
  }

  function Lower(s: string): (r: string)
    ensures |r| == |s|
    ensures forall i :: 0 <= i < |s| ==> r[i] == LowerChar(s[i])
  {
    seq(|s|, i requires 0 <= i < |s| => LowerChar(s[i]))
  }

  lemma LowerIdempotent(s: string)
    ensures Lower(Lower(s)) == Lower(s)
  {
    assert forall i :: 0 <= i < |s| ==> Lower(Lower(s))[i] == Lower(s)[i];
  }

  /** The spellings stringToBoolean accepts once lower-cased. */
  predicate Accepted(t: string)
  {
    t == "yes" || t == "true" || t == "1"
  }

  /** stringToBoolean: true exactly for "yes", "true" and "1" in any mix of
      upper and lower case; every other string, "" and padded ones included,
      is false. */
  function StringToBoolean(s: string): (b: bool)
    ensures b <==> || s == "1"
                   || (|s| == 3 && s[0] in "yY" && s[1] in "eE" && s[2] in "sS")
                   || (|s| == 4 && s[0] in "tT" && s[1] in "rR" && s[2] in "uU" && s[3] in "eE")
  {
    var t := Lower(s);
    assert t == "1" <==> s == "1" by {
      if |s| == 1 { assert t[0] == LowerChar(s[0]); }
    }
    assert t == "yes" <==> |s| == 3 && s[0] in "yY" && s[1] in "eE" && s[2] in "sS" by {
      if |s| == 3 { assert t[0] == LowerChar(s[0]) && t[1] == LowerChar(s[1]) && t[2] == LowerChar(s[2]); }
    }
    assert t == "true" <==> |s| == 4 && s[0] in "tT" && s[1] in "rR" && s[2] in "uU" && s[3] in "eE" by {
      if |s| == 4 {
        assert t[0] == LowerChar(s[0]) && t[1] == LowerChar(s[1]) && t[2] == LowerChar(s[2])
               && t[3] == LowerChar(s[3]);
      }
    }
    Accepted(t)
  }

  /** Lower-casing the input first changes nothing. */
  lemma StringToBooleanIgnoresCase(s: string)
    ensures StringToBoolean(s) == StringToBoolean(Lower(s))
  {
    LowerIdempotent(s);
  }

  lemma StringToBooleanExamples()
    ensures StringToBoolean("YES") && StringToBoolean("True") && StringToBoolean("1")
    ensures !StringToBoolean("") && !StringToBoolean("no") && !StringToBoolean(" yes") && !StringToBoolean("0")
  {
  }

  /** An option value: the raw text of a URL parameter or what a parser made
      of it. */
  datatype OptionValue = Text(text: string) | Flag(flag: bool) | Number(number: real)

  /** setOptionFromUrlParams: when the URL parameters have `name`, the option
      of that name becomes the parsed value (the raw text when no parser is
      given); nothing else changes. Repeated parameters are not modelled:
      `params` holds the value URLSearchParams.get returns. */
  function SetOptionFromUrlParams(options: map<string, OptionValue>, params: map<string, string>, name: string,
                                  parse: Option<string -> OptionValue>): (r: map<string, OptionValue>)
    ensures name in params ==> name in r && r[name] == (if parse.Some? then parse.value(params[name])
                                                        else Text(params[name]))
    ensures name !in params ==> r == options
    ensures forall k :: k != name ==> (k in r <==> k in options)
    ensures forall k :: k != name && k in options ==> r[k] == options[k]
  {
    if name in params then
      options[name := if parse.Some? then parse.value(params[name]) else Text(params[name])]
    else options
  }
}

=== FILE: visibility.dfy ===
/** The year window shared by main.js and render_view.js: extractYearFromDate,
    setVisibility and the hole filter of updateGround. The identical copies in
    render_view.js (lines 207-220, 250-252 and 311-323) are the same model. */
module Visibility {
  import opened Wrappers
  import opened Features

  /** A year as the source holds it: None stands for null, undefined or NaN. */
  type Year = Option<int>

  /** The defaults `startYear || 0` and `endYear || 10000` substitute. */
  const DEFAULT_START_YEAR: int := 0
  const DEFAULT_END_YEAR: int := 10000

  predicate TruthyYear(y: Year)
  {
    y.Some? && y.value != 0
  }

  /** `y || d`: a falsy year (missing or 0) becomes the default. */
  function OrDefault(y: Year, d: int): int
  {
    if TruthyYear(y) then y.value else d
  }

  /** Whether `year` lies in the window [start || 0, end || 10000]. */
  predicate InWindow(start: Year, end: Year, year: int)
  {
    OrDefault(start, DEFAULT_START_YEAR) <= year <= OrDefault(end, DEFAULT_END_YEAR)
  }

  /** extractYearFromDate: a falsy date gives null, any other date is handed
      to the number conversion. */
  function ExtractYearFromDate(date: Option<string>, number: string -> Year): (y: Year)
    ensures !TruthyText(date) ==> y.None?
    ensures TruthyText(date) ==> y == number(date.value)
  {
    if TruthyText(date) then number(date.value) else None
  }

  /** The part of a scene object setVisibility reads and writes. */
  datatype Mesh = Mesh(name: string, depth: real, positionY: real, visible: bool)

  /** setVisibility: the object ends up visible exactly when the year lies in
      the window, and it is only written when that differs from its state. */
  function SetVisibility(start: Year, end: Year, year: int, m: Mesh): (r: Mesh)
    ensures r.visible <==> (if TruthyYear(start) then start.value else 0) <= year
                           && year <= (if TruthyYear(end) then end.value else 10000)
    ensures r.name == m.name && r.depth == m.depth && r.positionY == m.positionY
    ensures r == m <==> m.visible == InWindow(start, end, year)
  {
    if InWindow(start, end, year) then
      if !m.visible then m.(visible := true) else m
    else
      if m.visible then m.(visible := false) else m
  }

  /** A second call with the same inputs writes nothing. */
  lemma SetVisibilityIdempotent(start: Year, end: Year, year: int, m: Mesh)
    ensures SetVisibility(start, end, year, SetVisibility(start, end, year, m))
            == SetVisibility(start, end, year, m)
  {
  }

  /** End year 0 is falsy, so it opens the window up to 10000 instead of
      closing it. */
  lemma EndYearZeroIsOpenEnded(start: Year, year: int)
    ensures InWindow(start, Some(0), year) <==> InWindow(start, None, year)
    ensures InWindow(None, Some(0), 2000) && !InWindow(None, Some(0), 10001)
  {
  }

  /** A ground hole: its geometry and its dates. */
  datatype Hole<G> = Hole(geometry: G, startDate: Option<string>, endDate: Option<string>)

  predicate HoleVisible<G>(h: Hole<G>, year: int, number: string -> Year)
  {
    InWindow(ExtractYearFromDate(h.startDate, number), ExtractYearFromDate(h.endDate, number), year)
  }

  /** The hole filter of updateGround: the geometries of the holes whose window
      contains the year, in their original order. */
  function VisibleHoles<G(!new)>(holes: seq<Hole<G>>, year: int, number: string -> Year): (r: seq<G>)
    ensures |r| <= |holes|
    ensures forall g :: g in r <==> exists h :: h in holes && HoleVisible(h, year, number) && h.geometry == g
    decreases |holes|
  {
    if |holes| == 0 then []
    else
      var rest := VisibleHoles(holes[1..], year, number);
      assert forall h :: h in holes[1..] ==> h in holes;
      assert forall h :: h in holes ==> h == holes[0] || h in holes[1..];
      if HoleVisible(holes[0], year, number) then [holes[0].geometry] + rest else rest
  }

  /** Filtering keeps the order: the holes of a concatenation are the holes of
      each part, one after the other. */
  lemma {:induction false} VisibleHolesAppend<G(!new)>(a: seq<Hole<G>>, b: seq<Hole<G>>, year: int,
                                                 number: string -> Year)
    ensures VisibleHoles(a + b, year, number)
            == VisibleHoles(a, year, number) + VisibleHoles(b, year, number)
    decreases |a|
  {
    if |a| > 0 {
      assert (a + b)[0] == a[0] && (a + b)[1..] == a[1..] + b;
      VisibleHolesAppend(a[1..], b, year, number);
    } else {
      assert a + b == b;
    }
  }
}

=== FILE: wrappers.dfy ===
/** Failure-compatible optional values, used where the source has null,
    undefined or an absent key. */
module Wrappers {

  datatype Option<+T> = None | Some(value: T) {

    /** Returns the value inside Some, or the default when None. */
    function GetOr(default: T): T
    {
      match this
      case Some(v) => v
      case None => default
    }
  }
}
